=== FILE: README.md ===
# Autoware system designer: parameter defaults, description manifests, build scripts

This project is a Dafny model of three build-time tools of the Autoware system
designer, with proofs about each.

- **Parameter generator** (`parameter_process.py`). It reads every
  `*.schema.json` file of a directory. Each schema's `$ref` pointers are
  resolved: internal ones (`#/definitions/NAME`) and external ones (`FILE`,
  `FILE#/definitions/NAME`). The default value of every declared parameter
  below `properties["/**"].properties.ros__parameters` is then collected.
  String defaults that look like package-relative resource paths are prefixed
  with `$(find-pkg-share PACKAGE)/`. The result goes to `NAME.param.yaml`. The
  exit status is 0 only when every schema file converts.
  - Modules: `Json`, `RefResolver`, `DefaultsExtractor`, `PathRewriter`,
    `ParamBatch`.
- **Description collector** (`collect_system_descriptions.py`). It finds the
  workspace source root. Every system-description YAML file goes to the
  package whose directory is its nearest ancestor. The files are grouped per
  package, and each package gets a manifest listing the files whose kind
  (node, module, system, parameter set) the file name reveals.
  - Module: `DescriptionCollector`.
- **Build-script generator** (`build_script_generator.py`). For every
  deployment mode it walks the instance tree and collects, per compute unit
  (ECU), the packages of the nodes placed on it. Each ECU then gets
  `build_ECU.sh`, a `colcon build` call over those packages in ascending
  order, plus the system description's own package.
  - Module: `BuildScripts`, with the collecting dictionary as the class
    `PackageCollector`.

`Strings` and `Wrappers` hold the Python string operations and the `Option`
type that the others share.

Python exceptions are modelled as values: `Json.Result` with `Json.PyError`.
Every dictionary test of the code (`in`, `[]`, `.get`, `.items()`) is modelled
on whatever value it meets. A schema of the wrong shape therefore fails the
way the interpreter would. For example, `"default" in prop` on a string is a
substring test, and the `[]` that follows it raises `TypeError`.

The code has no cycle guard on `$ref` chains. A `fuel` parameter stands for
the interpreter's recursion limit: running out is `RecursionError`. Like any
other error, `RecursionError` is swallowed inside an external reference and
propagates elsewhere.

Everything the tools ask of the file system is a parameter:

- the files a reference or the batch can load (`RefResolver.Documents`);
- the directory listing;
- the output files that cannot be written;
- the package directories and the files whose content marks them as system
  descriptions.

In three places the model follows the code rather than the usual reading of
a JSON schema:

- An external file is looked up relative to the directory of the top-level
  schema file (`self.schema_path.parent`), at every depth. It is not looked
  up relative to the file that holds the reference. In the model, the same
  `Documents` map serves every external hop.
- A definition that resolves to something other than an object leaves the
  referencing node unchanged. It is not returned in the node's place
  (`RefResolver.InternalRefOutcome`, `RefResolver.ExternalRefOutcome`).
- The fragment name is obtained with `replace`, which removes every
  occurrence of `/definitions/`. A nested fragment such as
  `/definitions/a/definitions/b` therefore looks up the top-level name `ab`
  (`RefResolver.NestedFragmentFlattened`).

## Model

All source paths are relative to the repository root.

| member | source | states |
|---|---|---|
| Strings.StartsWith | autoware_system_designer/script/parameter_process.py:74 | `s.startswith(prefix)`: the prefix is the string's opening slice; used for every `startswith` test of the three tools |
| Strings.EndsWith | autoware_architect/script/collect_system_descriptions.py:43-49 | `s.endswith(suffix)`: the suffix is the string's closing slice; `Strings.HasSuffixIsEndsWith` relates it to the character-by-character test |
| Strings.IsSubstring | autoware_system_designer/script/parameter_process.py:193 | Python's `needle in haystack` on strings: some slice equals the needle; `Strings.SingleCharSubstring` reduces the one-character case to membership |
| Strings.SingleCharSubstring | autoware_system_designer/script/parameter_process.py:193 | `'/' in value` on strings is membership of the character `/` |
| Strings.HasSuffixIsEndsWith | autoware_architect/script/collect_system_descriptions.py:43-49 | comparing characters from the end is `endswith` |
| Strings.RemoveAll | autoware_system_designer/script/parameter_process.py:90 | `replace(pattern, "")` never lengthens the string |
| Strings.RemoveAllAbsent | autoware_system_designer/script/parameter_process.py:118 | removing a pattern that does not occur changes nothing |
| Strings.RemoveAllLeading | autoware_system_designer/script/parameter_process.py:118 | `replace` applied to `PREFIX + NAME` yields exactly `NAME` when `NAME` holds no further `PREFIX` |
| Strings.Partition | autoware_system_designer/script/parameter_process.py:75 | `partition("#")`: when `#` occurs, the string is before + `#` + after, with no `#` before; otherwise it is (whole string, "") |
| Strings.PartitionAt | autoware_system_designer/script/parameter_process.py:75 | splitting `before#after` with no `#` in `before` gives back `before` and `after` |
| Strings.Less | autoware_system_designer/autoware_system_designer/utils/build_script_generator.py:73 | the code-point (lexicographic) order of `sorted` on strings, a proper prefix coming first; its order properties are the four lemmas below |
| Strings.LessIrreflexive | autoware_system_designer/autoware_system_designer/utils/build_script_generator.py:73 | no string is below itself |
| Strings.LessAsymmetric | autoware_system_designer/autoware_system_designer/utils/build_script_generator.py:73 | two strings are never each below the other |
| Strings.LessTotal | autoware_system_designer/autoware_system_designer/utils/build_script_generator.py:73 | the code-point order `sorted` uses on strings is total |
| Strings.LessTransitive | autoware_system_designer/autoware_system_designer/utils/build_script_generator.py:73 | that order is transitive |
| Strings.Insert | autoware_system_designer/autoware_system_designer/utils/build_script_generator.py:73 | inserting into an ascending list keeps it ascending and adds exactly the new element |
| Strings.AscendingUnique | autoware_system_designer/autoware_system_designer/utils/build_script_generator.py:73 | two ascending lists with the same elements are equal |
| Strings.Join | autoware_system_designer/autoware_system_designer/utils/build_script_generator.py:81 | `sep.join(parts)`: the parts with the separator between consecutive ones; `BuildScripts.JoinedAsLines` states its shape for the script's package list |
| Strings.PathJoin | autoware_system_designer/autoware_system_designer/utils/build_script_generator.py:74 | two-argument `os.path.join`: an absolute second part replaces the first, otherwise one `/` is inserted unless the first is empty or already ends in one; its shape is `Strings.PathJoinShape` |
| Strings.PathJoinAll | autoware_system_designer/autoware_system_designer/utils/build_script_generator.py:61 | many-argument `os.path.join`, folding `Strings.PathJoin` from the left |
| Strings.PathJoinShape | autoware_system_designer/autoware_system_designer/utils/build_script_generator.py:74 | `os.path.join(a, b)` ends with `b`; keeps `a` as a prefix, adding at most one separator, unless `b` is absolute; is `b` alone when `b` is absolute |
| Json.Get | autoware_system_designer/script/parameter_process.py:101-103 | the value a dict holds under a key (its first member with that key); present exactly when the key is, a member of the dict, and smaller than it, which bounds the recursion over nested schemas |
| Json.Put | autoware_system_designer/script/parameter_process.py:103 | `d[key] = value` on a dict kept in insertion order; its effect on keys and values is `Json.PutKeys`, `Json.PutGet` and `Json.PutDistinct` |
| Json.In | autoware_system_designer/script/parameter_process.py:152 | `key in v` is key membership on a dict; raises exactly on numbers, booleans and None |
| Json.Index | autoware_system_designer/script/parameter_process.py:153 | `v[key]` succeeds exactly on a dict that has the key, and returns that key's value |
| Json.DictGet | autoware_system_designer/script/parameter_process.py:176 | `v.get(key)` succeeds exactly on a dict, and yields the key's value or None |
| Json.Items | autoware_system_designer/script/parameter_process.py:171 | `v.items()` succeeds exactly on a dict, and yields its members in order |
| Json.PutKeys | autoware_system_designer/script/parameter_process.py:103 | `d[key] = value` keeps an existing key in its place and appends a new one; no other key is added or moved |
| Json.PutGet | autoware_system_designer/script/parameter_process.py:103 | after `d[key] = value`, `key` maps to `value` and every other key keeps its value |
| Json.PutDistinct | autoware_system_designer/script/parameter_process.py:98-104 | assignment never creates a repeated key |
| PathRewriter.LooksPackageRelative | autoware_system_designer/script/parameter_process.py:190-195 | the path test: not absolute, not a `$(` substitution, and either containing `/` or ending in one of `.yaml`, `.json`, `.pcd`, `.onnx`, `.xml`; `PathRewriter.RewriteExactly` ties the rewrite to it |
| PathRewriter.Rewrite | autoware_system_designer/script/parameter_process.py:185-198 | `_process_default_value_path`: a string passing the path test, with a truthy package name, gets the `$(find-pkg-share PKG)/` prefix; its promises are the `PathRewriter` lemmas below |
| PathRewriter.RewriteShape | autoware_system_designer/script/parameter_process.py:185-198 | non-strings and a falsy package name leave the value alone; a string stays a string; a changed value still ends with the original and starts with `$(` |
| PathRewriter.RewriteExactly | autoware_system_designer/script/parameter_process.py:187-197 | the value changes if and only if it is a string, the package name is truthy and the path test holds; the new value is `$(find-pkg-share PKG)/` + value |
| PathRewriter.RewriteIdempotent | autoware_system_designer/script/parameter_process.py:185-198 | rewriting a rewritten value changes nothing |
| PathRewriter.RewriteExampleSeparator | autoware_system_designer/script/parameter_process.py:193-197 | `config/a.yaml` with package `demo_pkg` becomes `$(find-pkg-share demo_pkg)/config/a.yaml` |
| PathRewriter.RewriteExampleExtension | autoware_system_designer/script/parameter_process.py:194-197 | `model.onnx` (no separator, resource extension) is prefixed |
| PathRewriter.RewriteExamplesKept | autoware_system_designer/script/parameter_process.py:189-191 | absolute paths, `$(...)` substitutions and an empty package name are kept |
| PathRewriter.RewriteExamplePlain | autoware_system_designer/script/parameter_process.py:192-195 | a string with neither separator nor resource extension is kept |
| RefResolver.Resolve | autoware_system_designer/script/parameter_process.py:66-143 | `_resolve_refs`: a dict with `$ref` goes to the reference rules, any other dict and every list are rebuilt from their resolved children, anything else is returned; each call spends one unit of the recursion limit. Its outcomes are stated by the `RefResolver` lemmas below |
| RefResolver.ResolveRef | autoware_system_designer/script/parameter_process.py:71-133 | the `$ref` branch: a non-`#` string is external, `#/definitions/NAME` is looked up in the root, anything else is kept; lookup and resolution errors propagate; `RefResolver.InternalRefOutcome` and `RefResolver.ExternalRefOutcome` give its exact outcomes |
| RefResolver.ResolveExternal | autoware_system_designer/script/parameter_process.py:74-114 | the external branch: a missing or unloadable file, and any error raised inside the `try`, leave the node as it was; `RefResolver.ExternalRefOutcome` proves it never raises |
| RefResolver.ExternalTarget | autoware_system_designer/script/parameter_process.py:87-110 | the body of the `try`: no fragment resolves the whole file against itself, `/definitions/NAME` resolves and merges that definition with the file as root, any other fragment keeps the node |
| RefResolver.Overlay | autoware_system_designer/script/parameter_process.py:100-103 | `resolved.copy()` followed by `resolved[key] = value` for every key but `$ref`, in the node's order; `RefResolver.OverlayCorrect` states the result |
| RefResolver.Merge | autoware_system_designer/script/parameter_process.py:99-104 | a dict target is overlaid with the node's keys; a non-dict target leaves the node as it was (the code falls through to `return schema_data`) |
| RefResolver.FindDefinition | autoware_system_designer/script/parameter_process.py:119-125 | the definitions lookup: no `definitions` key gives "not found"; an object of definitions gives the named one if present; a number or other scalar document raises |
| RefResolver.OverlayCorrect | autoware_system_designer/script/parameter_process.py:126-132 | the merge holds every key of the target and every sibling key except `$ref`, nothing else; sibling values win, and other keys keep the target's value |
| RefResolver.ResolveMembers | autoware_system_designer/script/parameter_process.py:134-139 | a dict without `$ref` comes back with the same keys in the same order |
| RefResolver.ResolveItems | autoware_system_designer/script/parameter_process.py:140-141 | a list comes back with the same length |
| RefResolver.ResolveRefFree | autoware_system_designer/script/parameter_process.py:66-143 | a tree without `$ref` resolves to itself whenever its nesting depth is within the recursion limit, however many nodes it has |
| RefResolver.ResolveMembersRefFree | autoware_system_designer/script/parameter_process.py:134-139 | the same, for the members of a dict |
| RefResolver.ResolveItemsRefFree | autoware_system_designer/script/parameter_process.py:140-141 | the same, for the items of a list |
| RefResolver.ResolveTooDeep | autoware_system_designer/script/parameter_process.py:134-143 | a tree without `$ref` nested deeper than the recursion limit raises `RecursionError` |
| RefResolver.ResolveMembersTooDeep | autoware_system_designer/script/parameter_process.py:136-139 | the same, for the members of a dict |
| RefResolver.ResolveItemsTooDeep | autoware_system_designer/script/parameter_process.py:141 | the same, for the items of a list |
| RefResolver.RefFreeSucceedsIffShallow | autoware_system_designer/script/parameter_process.py:66-143 | on a tree without `$ref`, resolution succeeds if and only if its depth is within the recursion limit, and then returns the tree itself |
| RefResolver.InternalRefMerged | autoware_system_designer/script/parameter_process.py:117-132 | `#/definitions/NAME`, when NAME resolves to an object, yields that object overlaid with the node's other keys (local keys win) |
| RefResolver.InternalRefOutcome | autoware_system_designer/script/parameter_process.py:117-133 | an exact case split of a `#` reference: another fragment, a missing definition or a non-dict definition keeps the node; an object definition is merged with local keys winning; a lookup error or an error resolving the definition propagates |
| RefResolver.NonStringRefKept | autoware_system_designer/script/parameter_process.py:71-133 | a `$ref` whose value is not a string leaves the node unchanged |
| RefResolver.ExternalRefOutcome | autoware_system_designer/script/parameter_process.py:74-114 | an external reference never raises. It changes the node only when the file exists and loads, and then either the whole file resolves (no fragment), or `/definitions/NAME` exists there and resolves to an object, which is merged; resolution uses the external file as root |
| RefResolver.ExternalWholeFile | autoware_system_designer/script/parameter_process.py:108-110 | a fragment-free reference yields the external document resolved against itself, without the node's other keys |
| RefResolver.ExternalRefSyntax | autoware_system_designer/script/parameter_process.py:74-90 | `FILE#/definitions/NAME` is external, partitions into FILE and the fragment, and the fragment names NAME |
| RefResolver.ExternalDefinitionMerged | autoware_system_designer/script/parameter_process.py:88-104 | `FILE#/definitions/NAME`, when NAME resolves (against FILE) to an object, yields it overlaid with the node's other keys |
| RefResolver.NestedFragmentFlattened | autoware_system_designer/script/parameter_process.py:90 | `replace` turns the fragment `/definitions/a/definitions/b` into the name `ab` |
| DefaultsExtractor.ExtractDefaults | autoware_system_designer/script/parameter_process.py:145-162 | `_extract_defaults_from_resolved_schema`: the `/**` / `ros__parameters` envelope around the defaults of `ros__parameters`; `DefaultsExtractor.EnvelopeNavigation` states the result for every document shape |
| DefaultsExtractor.ExtractProperties | autoware_system_designer/script/parameter_process.py:164-183 | a successful extraction never stores an empty nested group, at any depth |
| DefaultsExtractor.ExtractEach | autoware_system_designer/script/parameter_process.py:170-181 | on success, the collected names are a subsequence of the declared ones (declaration order kept, no group empty), and every declared property is a dict |
| DefaultsExtractor.PropertyDefault | autoware_system_designer/script/parameter_process.py:172-181 | a property that is not a dict raises; a group it contributes is never empty |
| DefaultsExtractor.ExtractPropertiesSucceeds | autoware_system_designer/script/parameter_process.py:164-183 | on a dict, extraction succeeds if and only if `properties` is a dict of dicts, recursively through nesting properties |
| DefaultsExtractor.ExtractEachSucceeds | autoware_system_designer/script/parameter_process.py:170-181 | the same, for a list of declared properties |
| DefaultsExtractor.CollectedPerProperty | autoware_system_designer/script/parameter_process.py:171-179 | the entry collected under a property's name is exactly what that property contributes alone |
| DefaultsExtractor.CollectedDefaults | autoware_system_designer/script/parameter_process.py:164-183 | a property with `default` maps to the path-rewritten default; an object-typed property with `properties` maps to its nested defaults exactly when there are some; any other is absent; order is kept |
| DefaultsExtractor.EnvelopeNavigation | autoware_system_designer/script/parameter_process.py:145-162 | for every document: a missing `properties` / `/**` / `properties` / `ros__parameters` segment gives empty parameters; a segment that is not a dict gives empty parameters when `key in segment` is false and fails otherwise (the `[]` after it raises, or the `in` raises on a scalar); otherwise the parameters are the defaults of `ros__parameters`, and its errors propagate |
| ParamBatch.RFind | autoware_system_designer/script/parameter_process.py:202 | the last position of a character, or -1 exactly when it is absent |
| ParamBatch.Stem | autoware_system_designer/script/parameter_process.py:202 | `PurePath.stem`: the stem is a prefix of the name; the last-dot rule itself is stated, one case each, by `ParamBatch.StemOfDotted`, `ParamBatch.StemUndotted`, `ParamBatch.StemLeadingDot` and `ParamBatch.StemTrailingDot` |
| ParamBatch.StemOfDotted | autoware_system_designer/script/parameter_process.py:202 | `BASE.EXT` with a non-empty BASE and a dot-free, non-empty EXT has stem BASE |
| ParamBatch.StemUndotted | autoware_system_designer/script/parameter_process.py:202 | a name without a dot is its own stem |
| ParamBatch.StemLeadingDot | autoware_system_designer/script/parameter_process.py:202 | a name whose only dot is its first character is its own stem |
| ParamBatch.StemTrailingDot | autoware_system_designer/script/parameter_process.py:202 | a name ending in a dot keeps that dot: it is its own stem |
| ParamBatch.OutputName | autoware_system_designer/script/parameter_process.py:202-207 | the output name always ends in `.param.yaml`; the rule (drop a trailing `.schema` from the stem, then add `.param.yaml`) is stated by `ParamBatch.OutputNameOfPlainStem` and `ParamBatch.OutputNameOfSchemaStem` |
| ParamBatch.OutputNameOfPlainStem | autoware_system_designer/script/parameter_process.py:202-207 | a stem not ending in `.schema` is kept whole: the output name is the stem plus `.param.yaml` |
| ParamBatch.OutputNameOfSchemaStem | autoware_system_designer/script/parameter_process.py:203-207 | a stem ending in `.schema` is the output name less `.param.yaml`, plus `.schema`: exactly those seven characters are dropped |
| ParamBatch.OutputNameOfDotted | autoware_system_designer/script/parameter_process.py:202-207 | `BASE.EXT` (EXT dot-free, BASE not ending in `.schema`) is written to `BASE.param.yaml`; `node_b.json` gives `node_b.param.yaml` |
| ParamBatch.OutputNameOfUndotted | autoware_system_designer/script/parameter_process.py:202-207 | a name without a dot gets `.param.yaml` appended; `b` gives `b.param.yaml` |
| ParamBatch.OutputNameOfSchema | autoware_system_designer/script/parameter_process.py:202-207 | `BASE.schema.json` is written to `BASE.param.yaml` |
| ParamBatch.OutputNamesDistinct | autoware_system_designer/script/parameter_process.py:202-208 | two different schema files never share an output file |
| ParamBatch.SchemaFiles | autoware_system_designer/script/parameter_process.py:249 | the glob keeps exactly the listed names ending in `.schema.json` |
| ParamBatch.Convert | autoware_system_designer/script/parameter_process.py:43-64 | a success writes to the file's output name, which must be writable; a missing or unreadable file fails |
| ParamBatch.Written | autoware_system_designer/script/parameter_process.py:259-265 | no more outputs than schema files; isolation and the count are stated by `ParamBatch.WrittenComplete` and `ParamBatch.WrittenCount` |
| ParamBatch.AllWritten | autoware_system_designer/script/parameter_process.py:259-272 | every file yields an output if and only if every file converts |
| ParamBatch.WrittenFromFiles | autoware_system_designer/script/parameter_process.py:259-265 | every output is the conversion of some file of the batch |
| ParamBatch.WrittenComplete | autoware_system_designer/script/parameter_process.py:259-265 | failures are isolated: every file that converts has its output written whatever the other files do, and the failed files are exactly the files that do not convert |
| ParamBatch.WrittenCount | autoware_system_designer/script/parameter_process.py:259-265 | the number of outputs is the number of files less the number of failed files (three good files and one malformed one give three outputs) |
| ParamBatch.WrittenStep | autoware_system_designer/script/parameter_process.py:259-265 | one more file adds its output after the earlier ones when it converts, and nothing when it fails |
| ParamBatch.SchemaFilesNoRepeats | autoware_system_designer/script/parameter_process.py:249 | the glob of a listing without repeated names repeats no name |
| ParamBatch.OutputNameUnused | autoware_system_designer/script/parameter_process.py:202-208 | a schema file outside the batch has an output name that no output of the batch uses |
| ParamBatch.WrittenNamesDistinct | autoware_system_designer/script/parameter_process.py:259-265 | distinct schema files give outputs that go to pairwise different files |
| ParamBatch.WrittenDistinct | autoware_system_designer/script/parameter_process.py:249-265 | for a directory listing, which never repeats a name, every two outputs of the batch go to different files |
| ParamBatch.RunBatch | autoware_system_designer/script/parameter_process.py:245-272 | a missing directory exits 1. Otherwise the outputs are those of the converting files in order, the success count is their number, which is the file count less the failed files, and the exit code is 0 if and only if there are schema files and all succeed |
| ParamBatch.ExitStatus | autoware_system_designer/script/parameter_process.py:259-272 | the success count equals the file count if and only if every listed schema file converts |
| DescriptionCollector.InferKind | autoware_architect/script/collect_system_descriptions.py:42-51 | `infer_type`: the kind of the first of the four suffixes, in the code's order, that the file name ends with, else `unknown`; stated by `DescriptionCollector.InferKindChain` and `DescriptionCollector.InferKindBySuffix` |
| DescriptionCollector.InferKindChain | autoware_architect/script/collect_system_descriptions.py:42-51 | the kind is that of the first of the four `endswith` tests that holds, in the code's order, and `unknown` when none does |
| DescriptionCollector.SuffixesExclusive | autoware_architect/script/collect_system_descriptions.py:42-51 | no file name ends with two of the four suffixes |
| DescriptionCollector.InferKindBySuffix | autoware_architect/script/collect_system_descriptions.py:42-51 | each kind holds if and only if its own suffix matches, and `unknown` if and only if none does: the test order does not matter |
| DescriptionCollector.IndexOf | autoware_architect/script/collect_system_descriptions.py:69 | `parts.index(x)` is the first position of `x` |
| DescriptionCollector.SourceRoot | autoware_architect/script/collect_system_descriptions.py:66-70 | a path with a `src` component has a source root, namely the path up to its first `src` |
| DescriptionCollector.SourceRootBelow | autoware_architect/script/collect_system_descriptions.py:66-70 | every path below a source root finds that same root |
| DescriptionCollector.Parent | autoware_architect/script/collect_system_descriptions.py:115-126 | `os.path.dirname` on a path given by its components: the path less its last component (the root stays the root) |
| DescriptionCollector.Basename | autoware_architect/script/collect_system_descriptions.py:152 | `os.path.basename`: the last component, or empty for the root |
| DescriptionCollector.Owner | autoware_architect/script/collect_system_descriptions.py:115-129 | the package the upward walk from a file's directory finds, stopping at the workspace root; characterised by `DescriptionCollector.OwnerNone` and `DescriptionCollector.OwnerSome` |
| DescriptionCollector.OwnerNone | autoware_architect/script/collect_system_descriptions.py:115-129 | the walk finds no package exactly when no ancestor inside the workspace root is a package directory |
| DescriptionCollector.OwnerSome | autoware_architect/script/collect_system_descriptions.py:115-129 | a package the walk finds is that of the deepest ancestor inside the workspace root that is a package directory |
| DescriptionCollector.OwnerIsNearest | autoware_architect/script/collect_system_descriptions.py:115-129 | both together: the owner is the package of the deepest ancestor inside the root that is a package directory, and there is none exactly when no such ancestor exists |
| DescriptionCollector.OwnerOutside | autoware_architect/script/collect_system_descriptions.py:120 | a directory outside the workspace root has no owner |
| DescriptionCollector.OwningPackage | autoware_architect/script/collect_system_descriptions.py:115-129 | the ancestor walk finds exactly the nearest owner |
| DescriptionCollector.Accept | autoware_architect/script/collect_system_descriptions.py:107-129 | a globbed file counts when its content marks it as a description and the walk finds a (truthy) package for it; the result is that package |
| DescriptionCollector.FilesOf | autoware_architect/script/collect_system_descriptions.py:131-133 | `pkg_files[pkg]`: the accepted files of one package, in glob order; `DescriptionCollector.FilesOfMembers` states its contents |
| DescriptionCollector.PackageOrder | autoware_architect/script/collect_system_descriptions.py:131-132 | the key order of `pkg_files`: each owning package at its first accepted file; `DescriptionCollector.PackageOrderMembers` states its contents |
| DescriptionCollector.FilesOfMembers | autoware_architect/script/collect_system_descriptions.py:131-133 | a package's list holds exactly the globbed description files whose (truthy) owner it is |
| DescriptionCollector.PackageOrderMembers | autoware_architect/script/collect_system_descriptions.py:131-133 | the packages appear once each, and a package appears if and only if it owns some file |
| DescriptionCollector.GroupStep | autoware_architect/script/collect_system_descriptions.py:131-133 | one more file appends to its owner's list, and appends the owner to the key order when it is new; a file without owner changes nothing |
| DescriptionCollector.GroupByPackage | autoware_architect/script/collect_system_descriptions.py:107-133 | `pkg_files` has exactly those packages as keys, in first-met order, each mapped to its files |
| DescriptionCollector.GroupsPartition | autoware_architect/script/collect_system_descriptions.py:128-133 | a globbed file is in a package's list if and only if that package owns it; a package is a key if and only if its list is non-empty |
| DescriptionCollector.ConfigFiles | autoware_architect/script/collect_system_descriptions.py:151-158 | `system_config_files`: each file with its inferred kind, in order, skipping `unknown`; its members are stated by `DescriptionCollector.ConfigFilesMembers`, its order and multiplicity by `DescriptionCollector.ConfigFilesInOrder` and `DescriptionCollector.ConfigFilesOfOne` |
| DescriptionCollector.ConfigFilesMembers | autoware_architect/script/collect_system_descriptions.py:151-158 | the manifest lists exactly the package's files of known kind, each with its inferred kind, and no more entries than files (membership only; order is the next two rows) |
| DescriptionCollector.ConfigFilesInOrder | autoware_architect/script/collect_system_descriptions.py:151-158 | the entries for a concatenation of file lists are those of the first list followed by those of the second: the loop keeps the files' order |
| DescriptionCollector.ConfigFilesOfOne | autoware_architect/script/collect_system_descriptions.py:152-158 | one file contributes no entry when its kind is `unknown`, and otherwise exactly one entry, the file with its kind |
| DescriptionCollector.PackagePath | autoware_architect/script/collect_system_descriptions.py:144 | `os.path.join(install_prefix, 'share', pkg)`; `DescriptionCollector.PackagePathShape` gives its text for a plain prefix |
| DescriptionCollector.ManifestFor | autoware_architect/script/collect_system_descriptions.py:142-158 | one package's manifest: path `OUTPUT/PKG.yaml`, `package_path` and the known-kind files; `DescriptionCollector.BuildManifest` computes it by the code's loop |
| DescriptionCollector.PackagePathShape | autoware_architect/script/collect_system_descriptions.py:144 | with a plain install prefix, the package path is `PREFIX/share/PKG` |
| DescriptionCollector.BuildManifest | autoware_architect/script/collect_system_descriptions.py:142-158 | one manifest: written to `OUTPUT/PKG.yaml`, with `package_path` below the install prefix's `share`, listing the known-kind files, none of kind `unknown` |
| DescriptionCollector.ManifestsFor | autoware_architect/script/collect_system_descriptions.py:141 | one manifest per package of the key order |
| DescriptionCollector.ManifestsForAt | autoware_architect/script/collect_system_descriptions.py:141-158 | the i-th manifest is the one of the i-th package: written to `OUTPUT/PKG.yaml`, with `PREFIX/share/PKG` and the package's known-kind files |
| DescriptionCollector.BuildManifests | autoware_architect/script/collect_system_descriptions.py:141-158 | the loop over `pkg_files.items()` produces exactly those manifests, in dictionary order |
| BuildScripts.Records | autoware_system_designer/autoware_system_designer/utils/build_script_generator.py:45-47 | the test of `collect_packages`: a node with a configuration whose package and compute unit are both truthy |
| BuildScripts.Contributions | autoware_system_designer/autoware_system_designer/utils/build_script_generator.py:43-55 | the additions of the walk in the order it makes them: the instance's own, then its children's in dictionary order; `BuildScripts.ContributionsFromNodes` says which they are |
| BuildScripts.ContributionsFromNodes | autoware_system_designer/autoware_system_designer/utils/build_script_generator.py:43-55 | the walk adds (ECU, package) if and only if some instance of the tree is a node with a package on that ECU |
| BuildScripts.ContributionsAllFromNodes | autoware_system_designer/autoware_system_designer/utils/build_script_generator.py:53-55 | the same, over a list of children |
| BuildScripts.Add | autoware_system_designer/autoware_system_designer/utils/build_script_generator.py:48-50 | the dictionary after one addition: the ECU's set, empty if it was not a key, plus the package |
| BuildScripts.Recorded | autoware_system_designer/autoware_system_designer/utils/build_script_generator.py:43-58 | the dictionary after a series of additions, in order; `BuildScripts.RecordedMeaning` states its keys and sets |
| BuildScripts.Enlisted | autoware_system_designer/autoware_system_designer/utils/build_script_generator.py:48-49 | the dictionary's key order after a series of additions: a new ECU is appended; `BuildScripts.RecordedConsistent` states its invariant |
| BuildScripts.RecordedMeaning | autoware_system_designer/autoware_system_designer/utils/build_script_generator.py:48-50 | after a series of additions, an ECU has a set if and only if it had one or was named. A package is in its set if and only if it was there before or was added to it |
| BuildScripts.RecordedConsistent | autoware_system_designer/autoware_system_designer/utils/build_script_generator.py:43-58 | additions keep the dictionary's keys in insertion order without repeats, and no set empty |
| BuildScripts.PackageCollector.constructor | autoware_system_designer/autoware_system_designer/utils/build_script_generator.py:40 | the dictionary starts empty |
| BuildScripts.PackageCollector.Record | autoware_system_designer/autoware_system_designer/utils/build_script_generator.py:48-50 | an ECU not yet a key gets an empty set, then the package is added to its set: the package joins the ECU's set, and a new ECU is appended to the key order |
| BuildScripts.PackageCollector.Collect | autoware_system_designer/autoware_system_designer/utils/build_script_generator.py:43-58 | the recursive walk leaves exactly the pre-order additions of the tree in the dictionary, keeping its shape |
| BuildScripts.SortedPackages | autoware_system_designer/autoware_system_designer/utils/build_script_generator.py:73 | `sorted(list(pkgs))` is strictly ascending and has exactly the set's elements |
| BuildScripts.SortedDeterministic | autoware_system_designer/autoware_system_designer/utils/build_script_generator.py:73 | the sorted list is determined by the set alone |
| BuildScripts.ScriptText | autoware_system_designer/autoware_system_designer/utils/build_script_generator.py:76-81 | the text written to `build_ECU.sh`; `BuildScripts.ScriptTextShape` states its shape |
| BuildScripts.ScriptTextShape | autoware_system_designer/autoware_system_designer/utils/build_script_generator.py:76-81 | the script is the shebang, ECU, mode and `colcon build` header followed by one line per package, and ends with a newline |
| BuildScripts.JoinedAsLines | autoware_system_designer/autoware_system_designer/utils/build_script_generator.py:81 | the joined package list is one indented line per package, each but the last continued with `\` |
| BuildScripts.SystemPackage | autoware_system_designer/autoware_system_designer/utils/build_script_generator.py:33-36 | the system package is present exactly when the configuration directory is in the map, and is its entry |
| BuildScripts.ScriptsDir | autoware_system_designer/autoware_system_designer/utils/build_script_generator.py:61 | `OUTPUT/exports/DEPLOYMENT/build_scripts/MODE`, by `os.path.join` |
| BuildScripts.ScriptName | autoware_system_designer/autoware_system_designer/utils/build_script_generator.py:74 | the script's file name, `build_ECU.sh` |
| BuildScripts.WithSystem | autoware_system_designer/autoware_system_designer/utils/build_script_generator.py:69-71 | an ECU's packages plus the system package when that is truthy; used by `BuildScripts.ScriptPackages` |
| BuildScripts.WriteScript | autoware_system_designer/autoware_system_designer/utils/build_script_generator.py:69-81 | one script: `build_ECU.sh` in the mode's directory, building exactly the given packages in ascending order, with the script text |
| BuildScripts.CollectPackages | autoware_system_designer/autoware_system_designer/utils/build_script_generator.py:40-58 | a fresh dictionary filled by the walk holds exactly the recorded additions of the tree, every ECU of the key order having a set |
| BuildScripts.EnlistedIffDeployed | autoware_system_designer/autoware_system_designer/utils/build_script_generator.py:43-58 | an ECU is a key of the dictionary if and only if some node of the tree records a package on it |
| BuildScripts.GenerateMode | autoware_system_designer/autoware_system_designer/utils/build_script_generator.py:38-81 | one script per collected ECU, in first-met order, each over that ECU's packages plus a truthy system package |
| BuildScripts.GenerateBuildScripts | autoware_system_designer/autoware_system_designer/utils/build_script_generator.py:21-81 | the scripts of every mode, written below `exports/DEPLOYMENT/build_scripts/MODE` |
| BuildScripts.CollectionConsistent | autoware_system_designer/autoware_system_designer/utils/build_script_generator.py:65-67 | after any walk every ECU's set is non-empty, so the `if not pkgs` skip never fires |
| BuildScripts.ScriptPerEcu | autoware_system_designer/autoware_system_designer/utils/build_script_generator.py:43-74 | an ECU gets a script if and only if some node of the tree with a package is placed on it |
| BuildScripts.ScriptPackages | autoware_system_designer/autoware_system_designer/utils/build_script_generator.py:43-73 | an ECU's script builds exactly the packages its nodes record, plus the truthy system package |

## Left out

- YAML output: `CustomDumper` and `yaml.dump` (parameter_process.py:13-26, 212-220) are not modelled. A converted file is the `DefaultsExtractor.Envelope` value, not its text; the inline lists and blank lines are formatting only.
- File-system access is replaced by parameters throughout:
  - `json.load`, `exists`, `mkdir` and `glob`;
  - `os.walk`, `makedirs` and `chmod`;
  - YAML loading and XML parsing in `get_package_name`, `find_packages` and `check_file_for_description`.
  The tools' actual file accesses are not modelled.
- The second and third heuristics of `find_source_root` (collect_system_descriptions.py:75-84) probe the file system for `build`/`install` siblings. They are not modelled: `DescriptionCollector.SourceRoot` returns None where they would run.
- Logging, `argparse` and `print` are not modelled. `sys.exit` is the returned exit code.
- `deployment_process.py`, `generate_visualization_index.py` and the rest of the system designer are not part of this model.
- Cyclic `$ref` chains: with fuel as the recursion limit, such a chain ends in `RecursionError`. The exact interpreter depth, which also counts frames outside the resolver, is not modelled.
- JSON numbers, booleans and null are opaque atoms. No modelled code inspects them.
- The `type == "array"` branch (parameter_process.py:180-181) can never run, because the first branch already takes every property with a `default`. `DefaultsExtractor.PropertyDefault` omits it.
- The ancestor walk's `curr.startswith(workspace_root)` is modelled as a component prefix (`DescriptionCollector.Below`). The two differ only for a sibling such as `/ws/src2` of `/ws/src`. The recursive glob never yields such a path, because it only lists files under the root.
- Paths are modelled as component sequences. `os.path.abspath` normalisation, symbolic links and `Path.resolve` are not modelled.
- Repeated JSON object keys are not excluded by the data model. `json.load` keeps only the last one, while the model's member sequences may repeat a key. The lemmas that depend on distinct keys (`RefResolver.OverlayCorrect`, `RefResolver.InternalRefMerged`, `RefResolver.ExternalDefinitionMerged`, `DefaultsExtractor.CollectedPerProperty`, `DefaultsExtractor.CollectedDefaults`) require `DistinctKeys`.
- The build scripts' `instance.children.values()` is modelled as a sequence of children in dictionary order. An instance without `children` has an empty sequence.
- `BuildScripts.GenerateMode` does not test `if not pkgs` (build_script_generator.py:66-67): `BuildScripts.CollectionConsistent` proves the sets are never empty.
- In the build-script generator, adding the system package mutates the set held by `packages_by_ecu`. The model builds a new set instead, which changes no script, because each set is used once.

=== FILE: build_scripts.dfy ===
/**
 * Per-ECU build scripts (`generate_build_scripts` in
 * `build_script_generator.py`).
 *
 * For every deployment mode, the instance tree is walked and each node with
 * a package and a compute unit records its package under that compute unit
 * (the ECU).  Each ECU then gets one script, `build_ECU.sh`, that builds
 * its packages, with the package holding the system description added when
 * there is one, listed in ascending order.
 */
module BuildScripts {

  import opened Strings
  import opened Wrappers

  // ---------------------------------------------------------------------
  // The instance tree
  // ---------------------------------------------------------------------

  datatype Configuration = Configuration(package: Option<string>)

  /** A deployed instance: only the attributes the walk reads. */
  datatype Instance = Instance(entityType: string, configuration: Option<Configuration>,
                               computeUnit: Option<string>, children: seq<Instance>)

  /** Python truthiness of an optional string. */
  predicate Truthy(s: Option<string>)
  {
    s.Some? && s.value != ""
  }

  /** The test of `collect_packages`: a node with a configuration naming a package, placed on an ECU. */
  predicate Records(t: Instance)
  {
    && t.entityType == "node"
    && t.configuration.Some?
    && Truthy(t.configuration.value.package)
    && Truthy(t.computeUnit)
  }

  /** One `packages_by_ecu[ecu].add(pkg)`. */
  datatype Contribution = Contribution(ecu: string, pkg: string)

  function Size(t: Instance): nat
  {
    1 + SizeAll(t.children)
  }

  function SizeAll(ts: seq<Instance>): (n: nat)
    ensures ts != [] ==> SizeAll(ts[..|ts| - 1]) < n && Size(ts[|ts| - 1]) < n
  {
    if ts == [] then 0 else SizeAll(ts[..|ts| - 1]) + Size(ts[|ts| - 1]) + 1
  }

  lemma {:induction false} SizeAllBounds(ts: seq<Instance>, i: nat)
    requires i < |ts|
    ensures Size(ts[i]) < SizeAll(ts)
    decreases |ts|
  {
    if i < |ts| - 1 {
      SizeAllBounds(ts[..|ts| - 1], i);
      assert ts[..|ts| - 1][i] == ts[i];
    }
  }

  /** The addition an instance makes itself, if any. */
  function Own(t: Instance): seq<Contribution>
  {
    if Records(t) then [Contribution(t.computeUnit.value, t.configuration.value.package.value)] else []
  }

  /** The additions made while walking `t`, in the order the walk makes them (pre-order). */
  function Contributions(t: Instance): seq<Contribution>
    decreases Size(t), 1
  {
    Own(t) + ContributionsAll(t.children)
  }

  function ContributionsAll(ts: seq<Instance>): seq<Contribution>
    decreases SizeAll(ts), 0
  {
    if ts == [] then []
    else ContributionsAll(ts[..|ts| - 1]) + Contributions(ts[|ts| - 1])
  }

  /** Every instance of the tree: the root and all of its descendants. */
  function Nodes(t: Instance): set<Instance>
    decreases Size(t), 1
  {
    {t} + NodesAll(t.children)
  }

  function NodesAll(ts: seq<Instance>): set<Instance>
    decreases SizeAll(ts), 0
  {
    if ts == [] then {}
    else NodesAll(ts[..|ts| - 1]) + Nodes(ts[|ts| - 1])
  }

  /**
   * The walk visits every descendant: an addition happens exactly for the
   * instances of the tree that pass the test, with their ECU and package.
   */
  lemma {:induction false} ContributionsFromNodes(t: Instance, c: Contribution)
    ensures c in Contributions(t) <==>
              exists n :: n in Nodes(t) && Records(n) && c == Contribution(n.computeUnit.value, n.configuration.value.package.value)
    decreases Size(t), 1
  {
    ContributionsAllFromNodes(t.children, c);
  }

  lemma {:induction false} ContributionsAllFromNodes(ts: seq<Instance>, c: Contribution)
    ensures c in ContributionsAll(ts) <==>
              exists n :: n in NodesAll(ts) && Records(n) && c == Contribution(n.computeUnit.value, n.configuration.value.package.value)
    decreases SizeAll(ts), 0
  {
    if ts != [] {
      ContributionsAllFromNodes(ts[..|ts| - 1], c);
      ContributionsFromNodes(ts[|ts| - 1], c);
    }
  }

  // ---------------------------------------------------------------------
  // The collection: `packages_by_ecu`
  // ---------------------------------------------------------------------

  /** `packages_by_ecu` after one addition. */
  function Add(byEcu: map<string, set<string>>, c: Contribution): map<string, set<string>>
  {
    byEcu[c.ecu := (if c.ecu in byEcu then byEcu[c.ecu] else {}) + {c.pkg}]
  }

  /** `packages_by_ecu` after a series of additions. */
  function Recorded(byEcu: map<string, set<string>>, cs: seq<Contribution>): map<string, set<string>>
    decreases |cs|
  {
    if cs == [] then byEcu else Recorded(Add(byEcu, cs[0]), cs[1..])
  }

  /** The key order of `packages_by_ecu` after a series of additions. */
  function Enlisted(order: seq<string>, cs: seq<Contribution>): seq<string>
    decreases |cs|
  {
    if cs == [] then order
    else if cs[0].ecu in order then Enlisted(order, cs[1..])
    else Enlisted(order + [cs[0].ecu], cs[1..])
  }

  lemma {:induction false} RecordedAppend(byEcu: map<string, set<string>>, a: seq<Contribution>, b: seq<Contribution>)
    ensures Recorded(byEcu, a + b) == Recorded(Recorded(byEcu, a), b)
    decreases |a|
  {
    if a != [] {
      assert (a + b)[0] == a[0] && (a + b)[1..] == a[1..] + b;
      RecordedAppend(Add(byEcu, a[0]), a[1..], b);
      assert Recorded(byEcu, a + b) == Recorded(Add(byEcu, a[0]), a[1..] + b);
      assert Recorded(byEcu, a) == Recorded(Add(byEcu, a[0]), a[1..]);
    } else {
      assert a + b == b;
    }
  }

  lemma {:induction false} EnlistedAppend(order: seq<string>, a: seq<Contribution>, b: seq<Contribution>)
    ensures Enlisted(order, a + b) == Enlisted(Enlisted(order, a), b)
    decreases |a|
  {
    if a != [] {
      assert (a + b)[0] == a[0] && (a + b)[1..] == a[1..] + b;
      var next := if a[0].ecu in order then order else order + [a[0].ecu];
      EnlistedAppend(next, a[1..], b);
      assert Enlisted(order, a + b) == Enlisted(next, a[1..] + b);
      assert Enlisted(order, a) == Enlisted(next, a[1..]);
    } else {
      assert a + b == b;
    }
  }

  /**
   * What the collection holds: an ECU has a set exactly when it had one or
   * some addition names it, and a package is in an ECU's set exactly when it
   * was before or some addition put it there.
   */
  lemma {:induction false} RecordedMeaning(byEcu: map<string, set<string>>, cs: seq<Contribution>, ecu: string, pkg: string)
    ensures var m := Recorded(byEcu, cs);
            && (ecu in m <==> ecu in byEcu || exists c :: c in cs && c.ecu == ecu)
            && (ecu in m && pkg in m[ecu] <==> (ecu in byEcu && pkg in byEcu[ecu]) || Contribution(ecu, pkg) in cs)
    decreases |cs|
  {
    if cs != [] {
      RecordedMeaning(Add(byEcu, cs[0]), cs[1..], ecu, pkg);
      assert forall c :: c in cs <==> c == cs[0] || c in cs[1..] by {
        assert cs == [cs[0]] + cs[1..];
      }
    }
  }

  /** The shape every collection keeps: keys in order, without repeats, and no empty set. */
  ghost predicate Consistent(byEcu: map<string, set<string>>, order: seq<string>)
  {
    && (forall e :: e in byEcu <==> e in order)
    && (forall i, j :: 0 <= i < j < |order| ==> order[i] != order[j])
    && (forall e :: e in byEcu ==> byEcu[e] != {})
  }

  lemma {:induction false} RecordedConsistent(byEcu: map<string, set<string>>, order: seq<string>, cs: seq<Contribution>)
    requires Consistent(byEcu, order)
    ensures Consistent(Recorded(byEcu, cs), Enlisted(order, cs))
    decreases |cs|
  {
    if cs != [] {
      var next := if cs[0].ecu in order then order else order + [cs[0].ecu];
      assert Consistent(Add(byEcu, cs[0]), next);
      RecordedConsistent(Add(byEcu, cs[0]), next, cs[1..]);
    }
  }

  /** The dictionary of sets that `collect_packages` fills. */
  class PackageCollector {
    var byEcu: map<string, set<string>>
    var order: seq<string>

    ghost predicate Valid()
      reads this
    {
      Consistent(byEcu, order)
    }

    constructor()
      ensures byEcu == map[] && order == [] && Valid()
    {
      byEcu, order := map[], [];
    }

    /** An ECU that is not yet a key first gets an empty set; then the package is added to its set. */
    method Record(ecu: string, pkg: string)
      requires Valid()
      modifies this
      ensures Valid()
      ensures byEcu == Add(old(byEcu), Contribution(ecu, pkg))
      ensures order == Enlisted(old(order), [Contribution(ecu, pkg)])
    {
      if ecu !in byEcu {
        byEcu := byEcu[ecu := {}];
        order := order + [ecu];
      }
      byEcu := byEcu[ecu := byEcu[ecu] + {pkg}];
    }

    /** `collect_packages`: the instance itself, then each child in order. */
    method Collect(t: Instance)
      requires Valid()
      modifies this
      ensures Valid()
      ensures byEcu == Recorded(old(byEcu), Contributions(t))
      ensures order == Enlisted(old(order), Contributions(t))
      decreases Size(t)
    {
      ghost var startEcu, startOrder := byEcu, order;
      if Records(t) {
        Record(t.computeUnit.value, t.configuration.value.package.value);
      }
      OwnRecorded(t, startEcu, startOrder);
      for i := 0 to |t.children|
        invariant Valid()
        invariant byEcu == Recorded(startEcu, Own(t) + ContributionsAll(t.children[..i]))
        invariant order == Enlisted(startOrder, Own(t) + ContributionsAll(t.children[..i]))
      {
        SizeAllBounds(t.children, i);
        ChildRecorded(t, i, startEcu, startOrder);
        Collect(t.children[i]);
      }
      assert t.children[..|t.children|] == t.children;
    }
  }

  /** Before the children: what the instance's own test adds. */
  lemma OwnRecorded(t: Instance, byEcu: map<string, set<string>>, order: seq<string>)
    ensures Own(t) + ContributionsAll(t.children[..0]) == Own(t)
    ensures Records(t) ==>
              var c := Contribution(t.computeUnit.value, t.configuration.value.package.value);
              Recorded(byEcu, Own(t)) == Add(byEcu, c) && Enlisted(order, Own(t)) == Enlisted(order, [c])
    ensures !Records(t) ==> Recorded(byEcu, Own(t)) == byEcu && Enlisted(order, Own(t)) == order
  {
    assert t.children[..0] == [];
  }

  /** Walking child `i` continues the additions made so far. */
  lemma ChildRecorded(t: Instance, i: nat, byEcu: map<string, set<string>>, order: seq<string>)
    requires i < |t.children|
    ensures var before := Own(t) + ContributionsAll(t.children[..i]);
            var after := Own(t) + ContributionsAll(t.children[..i + 1]);
            && Recorded(byEcu, after) == Recorded(Recorded(byEcu, before), Contributions(t.children[i]))
            && Enlisted(order, after) == Enlisted(Enlisted(order, before), Contributions(t.children[i]))
  {
    var before := Own(t) + ContributionsAll(t.children[..i]);
    assert t.children[..i + 1][..i] == t.children[..i];
    assert Own(t) + ContributionsAll(t.children[..i + 1]) == before + Contributions(t.children[i]);
    RecordedAppend(byEcu, before, Contributions(t.children[i]));
    EnlistedAppend(order, before, Contributions(t.children[i]));
  }

  // ---------------------------------------------------------------------
  // Sorting and script text
  // ---------------------------------------------------------------------

  /** `sorted(list(pkgs))`. */
  method SortedPackages(pkgs: set<string>) returns (sorted: seq<string>)
    ensures StrictlyAscending(sorted)
    ensures forall p :: p in sorted <==> p in pkgs
  {
    sorted := [];
    var rest := pkgs;
    while rest != {}
      invariant rest <= pkgs
      invariant StrictlyAscending(sorted)
      invariant forall p :: p in sorted <==> p in pkgs && p !in rest
      decreases |rest|
    {
      var p :| p in rest;
      sorted := Insert(sorted, p);
      rest := rest - {p};
    }
  }

  const PackageSeparator := " \\\n  "

  const Shebang := "#!/bin/bash\n"
  const EcuComment := "# Auto-generated build script for ECU: "
  const ModeComment := "# Mode: "
  const ColconCommand := "colcon build --symlink-install --cmake-args -DCMAKE_BUILD_TYPE=Release --packages-up-to \\\n"

  function Header(ecu: string, modeKey: string): string
  {
    Shebang + EcuComment + ecu + "\n" + ModeComment + modeKey + "\n\n" + ColconCommand
  }

  /** The text written to `build_ECU.sh`. */
  function ScriptText(ecu: string, modeKey: string, packages: seq<string>): string
  {
    Header(ecu, modeKey) + "  " + Join(packages, PackageSeparator) + "\n"
  }

  /** The package lines: each package indented on its own line, all but the last continued with `\`. */
  function PackageLines(packages: seq<string>): string
    requires packages != []
  {
    if |packages| == 1 then "  " + packages[0] + "\n"
    else "  " + packages[0] + " \\\n" + PackageLines(packages[1..])
  }

  /** The joined list is exactly one line per package. */
  lemma {:induction false} JoinedAsLines(packages: seq<string>)
    requires packages != []
    ensures "  " + Join(packages, PackageSeparator) + "\n" == PackageLines(packages)
  {
    if |packages| > 1 {
      JoinedAsLines(packages[1..]);
      var rest := Join(packages[1..], PackageSeparator);
      assert Join(packages, PackageSeparator) == packages[0] + PackageSeparator + rest;
      assert "  " + (packages[0] + PackageSeparator + rest) + "\n"
             == "  " + packages[0] + " \\\n" + ("  " + rest + "\n");
    }
  }

  /**
   * The script is the header (shebang, ECU and mode comments, the `colcon
   * build` command) followed by one line per package, and ends with a newline.
   */
  lemma ScriptTextShape(ecu: string, modeKey: string, packages: seq<string>)
    requires packages != []
    ensures StartsWith(ScriptText(ecu, modeKey, packages), Header(ecu, modeKey))
    ensures ScriptText(ecu, modeKey, packages) == Header(ecu, modeKey) + PackageLines(packages)
    ensures EndsWith(ScriptText(ecu, modeKey, packages), "\n")
  {
    JoinedAsLines(packages);
    var r := ScriptText(ecu, modeKey, packages);
    assert r == Header(ecu, modeKey) + ("  " + Join(packages, PackageSeparator) + "\n");
    assert r[..|Header(ecu, modeKey)|] == Header(ecu, modeKey);
    assert r[|r| - 1..] == "\n";
  }

  /** A script: its path, its ECU, the package list it builds, and its text. */
  datatype Script = Script(path: string, ecu: string, packages: seq<string>, text: string)

  /** The package of the system description: `file_package_map[config_yaml_dir]` when present. */
  function SystemPackage(configYamlDir: string, filePackageMap: map<string, string>): (r: Option<string>)
    ensures r.Some? <==> configYamlDir in filePackageMap
    ensures r.Some? ==> r.value == filePackageMap[configYamlDir]
  {
    if configYamlDir in filePackageMap then Some(filePackageMap[configYamlDir]) else None
  }

  const ExportsDir := "exports"
  const BuildScriptsDir := "build_scripts"

  /** `exports/DEPLOYMENT/build_scripts/MODE` under the output root. */
  function ScriptsDir(outputRoot: string, deploymentName: string, modeKey: string): string
  {
    PathJoinAll(outputRoot, [ExportsDir, deploymentName, BuildScriptsDir, modeKey])
  }

  const ScriptPrefix := "build_"
  const ScriptSuffix := ".sh"

  /** The file name of an ECU's script, `build_ECU.sh`. */
  function ScriptName(ecu: string): string
  {
    ScriptPrefix + ecu + ScriptSuffix
  }

  /** The packages an ECU's script builds: its own, plus the system package when truthy. */
  function WithSystem(pkgs: set<string>, systemPkg: Option<string>): set<string>
  {
    if Truthy(systemPkg) then pkgs + {systemPkg.value} else pkgs
  }

  /** `script` is the script of `ecu`, building exactly `pkgs`. */
  ghost predicate ScriptFor(script: Script, ecu: string, modeKey: string, scriptsDir: string, pkgs: set<string>)
  {
    && script.ecu == ecu
    && script.path == PathJoin(scriptsDir, ScriptName(ecu))
    && StrictlyAscending(script.packages)
    && (forall p :: p in script.packages <==> p in pkgs)
    && script.text == ScriptText(ecu, modeKey, script.packages)
  }

  /**
   * The scripts of one mode: one per ECU in the order the walk first met
   * it, named `build_ECU.sh`, building that ECU's packages plus the system
   * package when it is truthy, in ascending order.
   */
  ghost predicate ModeScripts(scripts: seq<Script>, modeKey: string, root: Instance, scriptsDir: string,
                              systemPkg: Option<string>)
  {
    var byEcu := Recorded(map[], Contributions(root));
    var order := Enlisted([], Contributions(root));
    && |scripts| == |order|
    && forall i | 0 <= i < |scripts| ::
         order[i] in byEcu && ScriptFor(scripts[i], order[i], modeKey, scriptsDir, WithSystem(byEcu[order[i]], systemPkg))
  }

  /** One script: lines 69-81 for one ECU whose package set is `pkgs` (the system package already added). */
  method WriteScript(ecu: string, modeKey: string, scriptsDir: string, pkgs: set<string>) returns (script: Script)
    ensures ScriptFor(script, ecu, modeKey, scriptsDir, pkgs)
  {
    var sorted := SortedPackages(pkgs);
    script := Script(PathJoin(scriptsDir, ScriptName(ecu)), ecu, sorted, ScriptText(ecu, modeKey, sorted));
  }

  /** Lines 40-58: a fresh `packages_by_ecu`, filled by walking the mode's root instance. */
  method CollectPackages(root: Instance) returns (byEcu: map<string, set<string>>, order: seq<string>)
    ensures byEcu == Recorded(map[], Contributions(root))
    ensures order == Enlisted([], Contributions(root))
    ensures forall e :: e in order ==> e in byEcu
  {
    var collector := new PackageCollector();
    collector.Collect(root);
    byEcu, order := collector.byEcu, collector.order;
  }

  /** The body of the loop over modes: collect, then write one script per ECU. */
  method GenerateMode(modeKey: string, root: Instance, scriptsDir: string, systemPkg: Option<string>)
    returns (scripts: seq<Script>)
    ensures ModeScripts(scripts, modeKey, root, scriptsDir, systemPkg)
  {
    var byEcu, order := CollectPackages(root);
    scripts := [];
    for i := 0 to |order|
      invariant |scripts| == i
      invariant forall k | 0 <= k < i ::
                  ScriptFor(scripts[k], order[k], modeKey, scriptsDir, WithSystem(byEcu[order[k]], systemPkg))
    {
      var pkgs := byEcu[order[i]];
      if Truthy(systemPkg) {
        pkgs := pkgs + {systemPkg.value};
      }
      assert pkgs == WithSystem(byEcu[order[i]], systemPkg);
      var script := WriteScript(order[i], modeKey, scriptsDir, pkgs);
      scripts := scripts + [script];
    }
  }

  /** One deployment mode and its root instance (`deploy_instances`). */
  datatype Mode = Mode(key: string, root: Instance)

  /** The scripts of `mode`, written below `exports/DEPLOYMENT/build_scripts/MODE`. */
  ghost predicate DeployedModeScripts(scripts: seq<Script>, mode: Mode, outputRoot: string, deploymentName: string,
                                      systemPkg: Option<string>)
  {
    ModeScripts(scripts, mode.key, mode.root, ScriptsDir(outputRoot, deploymentName, mode.key), systemPkg)
  }

  /** `generate_build_scripts`: the scripts of every mode, in mode order. */
  method GenerateBuildScripts(modes: seq<Mode>, outputRoot: string, deploymentName: string,
                              configYamlDir: string, filePackageMap: map<string, string>)
    returns (scripts: seq<seq<Script>>)
    ensures |scripts| == |modes|
    ensures forall i | 0 <= i < |modes| ::
              DeployedModeScripts(scripts[i], modes[i], outputRoot, deploymentName,
                                  SystemPackage(configYamlDir, filePackageMap))
  {
    var systemPkg := SystemPackage(configYamlDir, filePackageMap);
    scripts := [];
    for i := 0 to |modes|
      invariant |scripts| == i
      invariant forall k | 0 <= k < i :: DeployedModeScripts(scripts[k], modes[k], outputRoot, deploymentName, systemPkg)
    {
      var modeScripts := GenerateMode(modes[i].key, modes[i].root,
                                      ScriptsDir(outputRoot, deploymentName, modes[i].key), systemPkg);
      ModesExtended(scripts, modeScripts, modes, i, outputRoot, deploymentName, systemPkg);
      scripts := scripts + [modeScripts];
    }
  }

  /** The scripts of the modes so far, extended by those of the next mode. */
  lemma ModesExtended(scripts: seq<seq<Script>>, next: seq<Script>, modes: seq<Mode>, i: nat, outputRoot: string,
                      deploymentName: string, systemPkg: Option<string>)
    requires i < |modes| && |scripts| == i
    requires forall k | 0 <= k < i :: DeployedModeScripts(scripts[k], modes[k], outputRoot, deploymentName, systemPkg)
    requires ModeScripts(next, modes[i].key, modes[i].root, ScriptsDir(outputRoot, deploymentName, modes[i].key), systemPkg)
    ensures forall k | 0 <= k < i + 1 ::
              DeployedModeScripts((scripts + [next])[k], modes[k], outputRoot, deploymentName, systemPkg)
  {
  }

  // ---------------------------------------------------------------------
  // Properties
  // ---------------------------------------------------------------------

  /**
   * A fresh collection is consistent after any walk: every ECU appears once
   * in order and its set is never empty, so the `if not pkgs` skip of line
   * 66 never fires.
   */
  lemma CollectionConsistent(root: Instance)
    ensures Consistent(Recorded(map[], Contributions(root)), Enlisted([], Contributions(root)))
  {
    RecordedConsistent(map[], [], Contributions(root));
  }

  /** A node of the tree that records package `pkg` on `ecu`. */
  ghost predicate RecordedBy(root: Instance, ecu: string, pkg: string)
  {
    exists n :: n in Nodes(root) && Records(n) && n.computeUnit.value == ecu && n.configuration.value.package.value == pkg
  }

  /** A node of the tree that records some package on `ecu`. */
  ghost predicate Deployed(root: Instance, ecu: string)
  {
    exists n :: n in Nodes(root) && Records(n) && n.computeUnit.value == ecu
  }

  /** The collection has an entry for an ECU exactly when some node of the tree records a package on it. */
  lemma EnlistedIffDeployed(root: Instance, ecu: string)
    ensures ecu in Enlisted([], Contributions(root)) <==> Deployed(root, ecu)
  {
    var cs := Contributions(root);
    CollectionConsistent(root);
    RecordedMeaning(map[], cs, ecu, "");
    if Deployed(root, ecu) {
      var n :| n in Nodes(root) && Records(n) && n.computeUnit.value == ecu;
      ContributionsFromNodes(root, Contribution(ecu, n.configuration.value.package.value));
    }
    if ecu in Enlisted([], cs) {
      var c :| c in cs && c.ecu == ecu;
      ContributionsFromNodes(root, c);
    }
  }

  /** Per mode, an ECU gets a script exactly when some node of the tree records a package on it. */
  lemma ScriptPerEcu(scripts: seq<Script>, modeKey: string, root: Instance, scriptsDir: string,
                     systemPkg: Option<string>, ecu: string)
    requires ModeScripts(scripts, modeKey, root, scriptsDir, systemPkg)
    ensures (exists i :: 0 <= i < |scripts| && scripts[i].ecu == ecu) <==> Deployed(root, ecu)
  {
    var cs := Contributions(root);
    var byEcu, order := Recorded(map[], cs), Enlisted([], cs);
    EnlistedIffDeployed(root, ecu);
    if ecu in order {
      var i :| 0 <= i < |order| && order[i] == ecu;
      assert ScriptFor(scripts[i], order[i], modeKey, scriptsDir, WithSystem(byEcu[order[i]], systemPkg));
    }
    if exists i :: 0 <= i < |scripts| && scripts[i].ecu == ecu {
      var i :| 0 <= i < |scripts| && scripts[i].ecu == ecu;
      assert ScriptFor(scripts[i], order[i], modeKey, scriptsDir, WithSystem(byEcu[order[i]], systemPkg));
      assert order[i] in order;
    }
  }

  /**
   * The script of an ECU builds exactly the packages that nodes of the tree
   * record on that ECU, plus the system package when it is truthy.
   */
  lemma ScriptPackages(scripts: seq<Script>, modeKey: string, root: Instance, scriptsDir: string,
                       systemPkg: Option<string>, i: nat, pkg: string)
    requires ModeScripts(scripts, modeKey, root, scriptsDir, systemPkg) && i < |scripts|
    ensures pkg in scripts[i].packages <==>
              RecordedBy(root, scripts[i].ecu, pkg) || (Truthy(systemPkg) && pkg == systemPkg.value)
  {
    var cs := Contributions(root);
    var order := Enlisted([], cs);
    var ecu := order[i];
    assert ScriptFor(scripts[i], ecu, modeKey, scriptsDir, WithSystem(Recorded(map[], cs)[ecu], systemPkg));
    RecordedMeaning(map[], cs, ecu, pkg);
    ContributionsFromNodes(root, Contribution(ecu, pkg));
  }

  /** The package list of a script is determined by its set: `sorted` has only one possible result. */
  lemma SortedDeterministic(a: seq<string>, b: seq<string>, pkgs: set<string>)
    requires StrictlyAscending(a) && forall p :: p in a <==> p in pkgs
    requires StrictlyAscending(b) && forall p :: p in b <==> p in pkgs
    ensures a == b
  {
    AscendingUnique(a, b);
  }
}

=== FILE: defaults_extractor.dfy ===
/**
 * Default values of a resolved schema
 * (`_extract_defaults_from_resolved_schema`, `_extract_defaults_from_properties`).
 *
 * The parameters live at the node-wildcard key `NodeWildcard` below `properties`, then `properties` and `ros__parameters`.
 * Their defaults are collected property by property in declaration order: a
 * property with a `default` contributes that value (path-rewritten), an
 * object-typed property with its own `properties` contributes its nested
 * defaults when there are any, and every other property contributes nothing.
 * Every Python test is modelled on whatever value it meets, so a schema of the
 * wrong shape fails the way Python would.
 */
module DefaultsExtractor {

  import opened Strings
  import opened Wrappers
  import opened Json
  import PathRewriter

  /** A parameter value: a default taken from the schema, or a nested group of parameters. */
  datatype Param = Leaf(value: Json) | Group(entries: seq<Entry>)

  datatype Entry = Entry(name: string, param: Param)

  /** The shape of every parameter file: the node wildcard mapping to `ros__parameters`. */
  datatype Envelope = Envelope(parameters: seq<Entry>)

  const PropertiesKey := "properties"
  const DefaultKey := "default"
  const TypeKey := "type"
  const NodeWildcard := "/**"
  const RosParametersKey := "ros__parameters"

  function Names(es: seq<Entry>): (ns: seq<string>)
    ensures |ns| == |es| && forall i :: 0 <= i < |es| ==> ns[i] == es[i].name
  {
    if es == [] then [] else [es[0].name] + Names(es[1..])
  }

  /** The parameter stored under `name`, as a dictionary lookup. */
  function Lookup(es: seq<Entry>, name: string): (r: Option<Param>)
    ensures r.Some? <==> name in Names(es)
  {
    if es == [] then None
    else if es[0].name == name then Some(es[0].param)
    else Lookup(es[1..], name)
  }

  /** No group produced by the recursion is empty, at any depth. */
  predicate Pruned(es: seq<Entry>)
  {
    forall i :: 0 <= i < |es| ==> PrunedParam(es[i].param)
  }

  predicate PrunedParam(p: Param)
  {
    match p
    case Leaf(_) => true
    case Group(entries) => entries != [] && forall i :: 0 <= i < |entries| ==> PrunedParam(entries[i].param)
  }

  /** `a` is `b` with some elements left out, order kept. */
  predicate Subsequence(a: seq<string>, b: seq<string>)
    decreases |b|
  {
    if a == [] then true
    else if b == [] then false
    else (a[0] == b[0] && Subsequence(a[1..], b[1..])) || Subsequence(a, b[1..])
  }

  lemma {:induction false} SubsequenceMembers(a: seq<string>, b: seq<string>, x: string)
    requires Subsequence(a, b) && x in a
    ensures x in b
    decreases |b|
  {
    if a[0] == b[0] && Subsequence(a[1..], b[1..]) {
      if x != a[0] {
        assert x in a[1..] by { assert a == [a[0]] + a[1..]; }
        SubsequenceMembers(a[1..], b[1..], x);
      }
    } else {
      SubsequenceMembers(a, b[1..], x);
    }
  }

  /** The whole extraction: navigate to the parameters, then collect their defaults. */
  function ExtractDefaults(schema: Json, packageName: Option<string>): Result<Envelope>
  {
    var hasProperties :- In(schema, PropertiesKey);
    if !hasProperties then Ok(Envelope([]))
    else
      var properties :- Index(schema, PropertiesKey);
      var hasNode :- In(properties, NodeWildcard);
      if !hasNode then Ok(Envelope([]))
      else
        var node :- Index(properties, NodeWildcard);
        var hasNodeProperties :- In(node, PropertiesKey);
        if !hasNodeProperties then Ok(Envelope([]))
        else
          var nodeProperties :- Index(node, PropertiesKey);
          var hasParameters :- In(nodeProperties, RosParametersKey);
          if !hasParameters then Ok(Envelope([]))
          else
            var parameters :- Index(nodeProperties, RosParametersKey);
            var collected :- ExtractProperties(parameters, packageName);
            Ok(Envelope(collected))
  }

  /** The defaults of the properties declared by `schema`, in declaration order. */
  function ExtractProperties(schema: Json, packageName: Option<string>): (r: Result<seq<Entry>>)
    ensures r.Ok? ==> Pruned(r.value)
    decreases Size(schema), 1
  {
    var hasProperties :- In(schema, PropertiesKey);
    if !hasProperties then Ok([])
    else
      var properties :- Index(schema, PropertiesKey);
      var declared :- Items(properties);
      ExtractEach(declared, packageName)
  }

  function ExtractEach(declared: seq<Member>, packageName: Option<string>): (r: Result<seq<Entry>>)
    ensures r.Ok? ==> Pruned(r.value) && Subsequence(Names(r.value), Keys(declared))
    ensures r.Ok? ==> forall i :: 0 <= i < |declared| ==> declared[i].value.Obj?
    decreases MembersSize(declared), 0
  {
    if declared == [] then Ok([])
    else
      var contribution :- PropertyDefault(declared[0].value, packageName);
      var rest :- ExtractEach(declared[1..], packageName);
      var r := if contribution.Some? then [Entry(declared[0].key, contribution.value)] + rest else rest;
      assert Names(r) == if contribution.Some? then [declared[0].key] + Names(rest) else Names(rest);
      assert Keys(declared) == [declared[0].key] + Keys(declared[1..]);
      assert r != [] && contribution.None? ==> Subsequence(Names(r), Keys(declared[1..]));
      Ok(r)
  }

  /** What one declared property contributes, if anything. */
  function PropertyDefault(prop: Json, packageName: Option<string>): (r: Result<Option<Param>>)
    ensures r.Ok? ==> prop.Obj?
    ensures r.Ok? && r.value.Some? ==> PrunedParam(r.value.value)
    decreases Size(prop), 2
  {
    var hasDefault :- In(prop, DefaultKey);
    if hasDefault then
      var d :- Index(prop, DefaultKey);
      Ok(Some(Leaf(PathRewriter.Rewrite(d, packageName))))
    else
      var declaredType :- DictGet(prop, TypeKey);
      if declaredType != Some(Str("object")) then Ok(None)
      else
        // `.get` succeeded, so `prop` is a dictionary and `in` tests its keys
        if PropertiesKey !in Keys(prop.members) then Ok(None)
        else
          var nested :- ExtractProperties(prop, packageName);
          Ok(if nested == [] then None else Some(Group(nested)))
  }

  // ---------------------------------------------------------------------
  // Properties
  // ---------------------------------------------------------------------

  /** An object-typed property without a default whose defaults come from its own `properties`. */
  predicate Nests(prop: Json)
  {
    && prop.Obj?
    && DefaultKey !in Keys(prop.members)
    && Get(prop.members, TypeKey) == Some(Str("object"))
    && PropertiesKey in Keys(prop.members)
  }

  /**
   * A schema object whose `properties`, if present, is an object of
   * property objects, recursively for every nesting property.
   */
  predicate WellShaped(schema: Json)
    decreases Size(schema), 1
  {
    && schema.Obj?
    && (PropertiesKey in Keys(schema.members) ==>
          var properties := Get(schema.members, PropertiesKey).value;
          properties.Obj? && WellShapedEach(properties.members))
  }

  predicate WellShapedEach(declared: seq<Member>)
    decreases MembersSize(declared), 0
  {
    declared != [] ==>
      && declared[0].value.Obj?
      && (Nests(declared[0].value) ==> WellShaped(declared[0].value))
      && WellShapedEach(declared[1..])
  }

  /** On a schema object, the extraction succeeds exactly when the schema is well shaped. */
  lemma {:induction false} ExtractPropertiesSucceeds(schema: Json, packageName: Option<string>)
    requires schema.Obj?
    ensures ExtractProperties(schema, packageName).Ok? <==> WellShaped(schema)
    decreases Size(schema), 1
  {
    if PropertiesKey in Keys(schema.members) {
      var properties := Get(schema.members, PropertiesKey).value;
      if properties.Obj? {
        ExtractEachSucceeds(properties.members, packageName);
      }
    }
  }

  lemma {:induction false} ExtractEachSucceeds(declared: seq<Member>, packageName: Option<string>)
    ensures ExtractEach(declared, packageName).Ok? <==> WellShapedEach(declared)
    decreases MembersSize(declared), 0
  {
    if declared != [] {
      var prop := declared[0].value;
      ExtractEachSucceeds(declared[1..], packageName);
      if Nests(prop) {
        ExtractPropertiesSucceeds(prop, packageName);
      }
    }
  }

  /**
   * The defaults collected for one declared property are what that property
   * contributes on its own (property names being distinct).
   */
  lemma {:induction false} CollectedPerProperty(declared: seq<Member>, packageName: Option<string>, i: nat)
    requires DistinctKeys(declared) && i < |declared|
    requires ExtractEach(declared, packageName).Ok?
    ensures PropertyDefault(declared[i].value, packageName).Ok?
    ensures Lookup(ExtractEach(declared, packageName).value, declared[i].key)
            == PropertyDefault(declared[i].value, packageName).value
    decreases |declared|
  {
    var out := ExtractEach(declared, packageName).value;
    var rest := ExtractEach(declared[1..], packageName).value;
    var contribution := PropertyDefault(declared[0].value, packageName).value;
    assert out == if contribution.Some? then [Entry(declared[0].key, contribution.value)] + rest else rest;
    DistinctTail(declared);
    if i == 0 {
      if contribution.None? && declared[0].key in Names(rest) {
        SubsequenceMembers(Names(rest), Keys(declared[1..]), declared[0].key);
      }
    } else {
      assert declared[i] == declared[1..][i - 1];
      assert declared[0].key != declared[i].key;
      CollectedPerProperty(declared[1..], packageName, i - 1);
    }
  }

  /**
   * The collected defaults, property by property: a property with a
   * `default` maps to that value after path rewriting; a nesting property
   * maps to its nested defaults exactly when there are some; every other
   * property is absent.  The collected names come in declaration order.
   */
  lemma CollectedDefaults(declared: seq<Member>, packageName: Option<string>)
    requires DistinctKeys(declared) && ExtractEach(declared, packageName).Ok?
    ensures var out := ExtractEach(declared, packageName).value;
            && Subsequence(Names(out), Keys(declared))
            && Pruned(out)
            && forall i | 0 <= i < |declared| ::
                 var name, prop := declared[i].key, declared[i].value;
                 && prop.Obj?
                 && (DefaultKey in Keys(prop.members) ==>
                       Lookup(out, name) == Some(Leaf(PathRewriter.Rewrite(Get(prop.members, DefaultKey).value, packageName))))
                 && (Nests(prop) ==>
                       var nested := ExtractProperties(prop, packageName);
                       nested.Ok? && Lookup(out, name) == if nested.value == [] then None else Some(Group(nested.value)))
                 && (DefaultKey !in Keys(prop.members) && !Nests(prop) ==> Lookup(out, name) == None)
  {
    forall i | 0 <= i < |declared| {
      CollectedPerProperty(declared, packageName, i);
    }
  }

  /**
   * A segment that is not an object ends the navigation: `key in v` is a
   * substring or element test on a string or list and raises on a scalar,
   * and when it holds, the `v[key]` that follows raises.  So the envelope is
   * empty exactly when the test is false, and otherwise the extraction fails.
   */
  ghost predicate NonObjectSegment(v: Json, key: string, r: Result<Envelope>)
  {
    !v.Obj? ==> (r.Ok? <==> In(v, key) == Ok(false)) && (r.Ok? ==> r == Ok(Envelope([])))
  }

  /**
   * Navigation to the parameters, for every shape of document: when a
   * segment of `properties`, `NodeWildcard`, `properties`, `ros__parameters`
   * is missing (the segments before it being objects), the envelope is empty;
   * a segment that is not an object behaves as `NonObjectSegment` says; when
   * all are present, the envelope holds the defaults of the `ros__parameters`
   * schema, and their errors propagate.
   */
  lemma EnvelopeNavigation(schema: Json, packageName: Option<string>)
    ensures var r := ExtractDefaults(schema, packageName);
            && NonObjectSegment(schema, PropertiesKey, r)
            && (schema.Obj? ==>
                  var s1 := Get(schema.members, PropertiesKey);
                  && (s1.None? ==> r == Ok(Envelope([])))
                  && (s1.Some? ==> NonObjectSegment(s1.value, NodeWildcard, r))
                  && (s1.Some? && s1.value.Obj? ==>
                        var s2 := Get(s1.value.members, NodeWildcard);
                        && (s2.None? ==> r == Ok(Envelope([])))
                        && (s2.Some? ==> NonObjectSegment(s2.value, PropertiesKey, r))
                        && (s2.Some? && s2.value.Obj? ==>
                              var s3 := Get(s2.value.members, PropertiesKey);
                              && (s3.None? ==> r == Ok(Envelope([])))
                              && (s3.Some? ==> NonObjectSegment(s3.value, RosParametersKey, r))
                              && (s3.Some? && s3.value.Obj? ==>
                                    var s4 := Get(s3.value.members, RosParametersKey);
                                    && (s4.None? ==> r == Ok(Envelope([])))
                                    && (s4.Some? && ExtractProperties(s4.value, packageName).Ok? ==>
                                          r == Ok(Envelope(ExtractProperties(s4.value, packageName).value)))
                                    && (s4.Some? && ExtractProperties(s4.value, packageName).Err? ==> r.Err?)))))
  {
  }
}

=== FILE: description_collector.dfy ===
/**
 * The manifest collector of `collect_system_descriptions.py`: description
 * files found under the workspace source root are attributed to the package
 * whose directory is their nearest ancestor, grouped per package in the order
 * they are met, and written out as one manifest per package listing the
 * files whose kind the file name reveals.
 *
 * A path is the sequence of its components below the file-system root
 * (`/ws/src/pkg` is `["ws", "src", "pkg"]`).  What the file system says is
 * a parameter: the package directories found by the scan with their names,
 * and the set of files whose content is a system description.
 */
module DescriptionCollector {

  import opened Strings
  import opened Wrappers

  type Path = seq<string>

  /** `root` is `p` or one of its ancestors. */
  predicate Below(p: Path, root: Path)
  {
    |root| <= |p| && p[..|root|] == root
  }

  // ---------------------------------------------------------------------
  // infer_type
  // ---------------------------------------------------------------------

  datatype DescriptionKind = Node | Module | System | ParameterSet | Unknown

  const NodeSuffix := ".node.yaml"
  const ModuleSuffix := ".module.yaml"
  const SystemSuffix := "system.yaml"
  const ParameterSetSuffix := "parameter_set.yaml"

  /** The suffixes `infer_type` tests, in the order it tests them, each with the kind it gives. */
  const KindSuffixes: seq<(string, DescriptionKind)> :=
    [(NodeSuffix, Node), (ModuleSuffix, Module), (SystemSuffix, System), (ParameterSetSuffix, ParameterSet)]

  /** The kind of the first entry of `table` whose suffix ends `fileName`. */
  function FirstMatchingKind(fileName: string, table: seq<(string, DescriptionKind)>): DescriptionKind
    decreases |table|
  {
    if table == [] then Unknown
    else if HasSuffix(fileName, table[0].0) then table[0].1
    else FirstMatchingKind(fileName, table[1..])
  }

  /** `infer_type`: the first suffix that matches, in a fixed order. */
  function InferKind(fileName: string): DescriptionKind
  {
    FirstMatchingKind(fileName, KindSuffixes)
  }

  /** The tests of `infer_type`, one after the other. */
  lemma InferKindChain(fileName: string)
    ensures InferKind(fileName) ==
              if EndsWith(fileName, NodeSuffix) then Node
              else if EndsWith(fileName, ModuleSuffix) then Module
              else if EndsWith(fileName, SystemSuffix) then System
              else if EndsWith(fileName, ParameterSetSuffix) then ParameterSet
              else Unknown
  {
    HasSuffixIsEndsWith(fileName, NodeSuffix);
    HasSuffixIsEndsWith(fileName, ModuleSuffix);
    HasSuffixIsEndsWith(fileName, SystemSuffix);
    HasSuffixIsEndsWith(fileName, ParameterSetSuffix);
    var t0 := KindSuffixes;
    var t1, t2, t3 := t0[1..], t0[2..], t0[3..];
    assert t1[1..] == t2 && t2[1..] == t3 && t3[1..] == [];
    assert FirstMatchingKind(fileName, t3) == if EndsWith(fileName, ParameterSetSuffix) then ParameterSet else Unknown;
    assert FirstMatchingKind(fileName, t2) ==
             if EndsWith(fileName, SystemSuffix) then System else FirstMatchingKind(fileName, t3);
    assert FirstMatchingKind(fileName, t1) ==
             if EndsWith(fileName, ModuleSuffix) then Module else FirstMatchingKind(fileName, t2);
  }

  /**
   * A string cannot end with two suffixes when the longer one does not end
   * with the shorter one; one differing character shows it.
   */
  lemma NotBothSuffixes(s: string, shorter: string, longer: string)
    requires shorter != [] && |shorter| <= |longer|
    requires longer[|longer| - |shorter|] != shorter[0]
    ensures EndsWith(s, longer) ==> !EndsWith(s, shorter)
  {
    if EndsWith(s, longer) {
      assert s[|s| - |shorter|] == longer[|longer| - |shorter|];
    }
  }

  /** No file name has two of the four suffixes. */
  lemma SuffixesExclusive(fileName: string)
    ensures EndsWith(fileName, ModuleSuffix) ==> !EndsWith(fileName, NodeSuffix)
    ensures EndsWith(fileName, SystemSuffix) ==> !EndsWith(fileName, NodeSuffix)
    ensures EndsWith(fileName, ParameterSetSuffix) ==> !EndsWith(fileName, NodeSuffix)
    ensures EndsWith(fileName, ModuleSuffix) ==> !EndsWith(fileName, SystemSuffix)
    ensures EndsWith(fileName, ParameterSetSuffix) ==> !EndsWith(fileName, ModuleSuffix)
    ensures EndsWith(fileName, ParameterSetSuffix) ==> !EndsWith(fileName, SystemSuffix)
  {
    NotBothSuffixes(fileName, NodeSuffix, ModuleSuffix);
    NotBothSuffixes(fileName, NodeSuffix, SystemSuffix);
    NotBothSuffixes(fileName, NodeSuffix, ParameterSetSuffix);
    NotBothSuffixes(fileName, SystemSuffix, ModuleSuffix);
    NotBothSuffixes(fileName, ModuleSuffix, ParameterSetSuffix);
    NotBothSuffixes(fileName, SystemSuffix, ParameterSetSuffix);
  }

  /**
   * Since no file name has two of the four suffixes, the order of the tests
   * does not matter: each kind is exactly its own suffix.
   */
  lemma InferKindBySuffix(fileName: string)
    ensures InferKind(fileName) == Node <==> EndsWith(fileName, NodeSuffix)
    ensures InferKind(fileName) == Module <==> EndsWith(fileName, ModuleSuffix)
    ensures InferKind(fileName) == System <==> EndsWith(fileName, SystemSuffix)
    ensures InferKind(fileName) == ParameterSet <==> EndsWith(fileName, ParameterSetSuffix)
    ensures InferKind(fileName) == Unknown <==>
              !EndsWith(fileName, NodeSuffix) && !EndsWith(fileName, ModuleSuffix)
              && !EndsWith(fileName, SystemSuffix) && !EndsWith(fileName, ParameterSetSuffix)
  {
    InferKindChain(fileName);
    SuffixesExclusive(fileName);
  }

  // ---------------------------------------------------------------------
  // find_source_root, first heuristic
  // ---------------------------------------------------------------------

  const SrcComponent := "src"

  /** Python's `list.index(x)` for an element known to be present. */
  function IndexOf(parts: Path, x: string): (i: nat)
    requires x in parts
    ensures i < |parts| && parts[i] == x && x !in parts[..i]
  {
    if parts[0] == x then 0
    else
      assert parts == [parts[0]] + parts[1..];
      var i := IndexOf(parts[1..], x);
      assert parts[..i + 1] == [parts[0]] + parts[1..][..i];
      i + 1
  }

  /**
   * The source root when the path has a `src` component: the path up to and
   * including its first `src`.  None means the first heuristic does not
   * apply (the file-system probing that follows is not part of this model).
   */
  function SourceRoot(path: Path): (r: Option<Path>)
    ensures r.Some? <==> SrcComponent in path
    ensures r.Some? ==>
              && Below(path, r.value)
              && r.value != [] && r.value[|r.value| - 1] == SrcComponent
              && SrcComponent !in r.value[..|r.value| - 1]
  {
    if SrcComponent in path then
      var i := IndexOf(path, SrcComponent);
      assert path[..i + 1][..i] == path[..i];
      Some(path[..i + 1])
    else None
  }

  /** The source root is the same for every path below it. */
  lemma SourceRootBelow(root: Path, rest: Path)
    requires SourceRoot(root) == Some(root)
    ensures SourceRoot(root + rest) == Some(root)
  {
    var r := SourceRoot(root + rest).value;
    assert (root + rest)[..|root|] == root;
    assert SrcComponent in root + rest by {
      assert (root + rest)[|root| - 1] == SrcComponent;
    }
  }

  // ---------------------------------------------------------------------
  // The owning package: nearest package directory at or above a file
  // ---------------------------------------------------------------------

  /** `os.path.dirname` on a path given by its components. */
  function Parent(p: Path): Path
  {
    if p == [] then [] else p[..|p| - 1]
  }

  /** `os.path.basename`. */
  function Basename(p: Path): string
  {
    if p == [] then "" else p[|p| - 1]
  }

  /**
   * The package of the walk starting at `dir`: the first directory, going
   * up, that is a package directory, giving up at the workspace root or
   * once the path no longer lies inside it.
   */
  function Owner(dir: Path, root: Path, packages: map<Path, string>): Option<string>
    decreases |dir|
  {
    if !Below(dir, root) then None
    else if dir in packages then Some(packages[dir])
    else if dir == root then None
    else Owner(Parent(dir), root, packages)
  }

  /**
   * The owner is the package of the deepest ancestor of `dir` (itself
   * included) that lies inside the workspace root and is a package
   * directory; there is none exactly when no such ancestor exists.
   */
  lemma {:induction false} OwnerIsNearest(dir: Path, root: Path, packages: map<Path, string>)
    requires Below(dir, root)
    ensures Owner(dir, root, packages).None? <==>
              forall k | |root| <= k <= |dir| :: dir[..k] !in packages
    ensures Owner(dir, root, packages).Some? ==>
              exists k: nat :: NearestPackageDir(dir, k, root, packages)
                               && Owner(dir, root, packages).value == packages[dir[..k]]
    decreases |dir|
  {
    OwnerNone(dir, root, packages);
    if Owner(dir, root, packages).Some? {
      OwnerSome(dir, root, packages);
    }
  }

  /** Below the root and other than it, a directory's parent is still below the root. */
  lemma ParentPrefixes(dir: Path, root: Path)
    requires Below(dir, root) && dir != root
    ensures |dir| > |root| && Parent(dir) == dir[..|dir| - 1] && Below(Parent(dir), root)
    ensures forall k | 0 <= k < |dir| :: Parent(dir)[..k] == dir[..k]
  {
    assert dir[..|dir|] == dir;
    var up := dir[..|dir| - 1];
    assert up[..|root|] == dir[..|root|];
  }

  /** The walk finds no package exactly when no ancestor inside the root is a package directory. */
  lemma {:induction false} OwnerNone(dir: Path, root: Path, packages: map<Path, string>)
    requires Below(dir, root)
    ensures Owner(dir, root, packages).None? <==>
              forall k | |root| <= k <= |dir| :: dir[..k] !in packages
    decreases |dir|
  {
    assert dir[..|dir|] == dir;
    if dir !in packages && dir != root {
      ParentPrefixes(dir, root);
      OwnerNone(Parent(dir), root, packages);
    } else if dir !in packages {
      assert forall k | |root| <= k <= |dir| :: dir[..k] == dir;
    }
  }

  /** `dir[..k]` is the deepest package directory among the ancestors of `dir` inside the root. */
  predicate NearestPackageDir(dir: Path, k: nat, root: Path, packages: map<Path, string>)
  {
    && |root| <= k <= |dir| && dir[..k] in packages
    && forall j | k < j <= |dir| :: dir[..j] !in packages
  }

  /** A package the walk finds is that of the deepest package directory among the ancestors. */
  lemma {:induction false} OwnerSome(dir: Path, root: Path, packages: map<Path, string>)
    requires Below(dir, root) && Owner(dir, root, packages).Some?
    ensures exists k: nat :: NearestPackageDir(dir, k, root, packages)
                             && Owner(dir, root, packages).value == packages[dir[..k]]
    decreases |dir|
  {
    assert dir[..|dir|] == dir;
    if dir in packages {
      assert NearestPackageDir(dir, |dir|, root, packages);
    } else {
      ParentPrefixes(dir, root);
      var up := Parent(dir);
      OwnerSome(up, root, packages);
      var k: nat :| NearestPackageDir(up, k, root, packages) && Owner(up, root, packages).value == packages[up[..k]];
      forall j | k < j <= |dir|
        ensures dir[..j] !in packages
      {
        if j < |dir| {
          assert dir[..j] == up[..j];
        }
      }
      assert dir[..k] == up[..k];
      assert NearestPackageDir(dir, k, root, packages);
    }
  }

  /** Outside the workspace root no file has a package. */
  lemma OwnerOutside(dir: Path, root: Path, packages: map<Path, string>)
    requires !Below(dir, root)
    ensures Owner(dir, root, packages) == None
  {
  }

  /** The `while curr.startswith(workspace_root)` walk of `main`. */
  method OwningPackage(dir: Path, root: Path, packages: map<Path, string>) returns (found: Option<string>)
    ensures found == Owner(dir, root, packages)
  {
    found := None;
    var curr := dir;
    while Below(curr, root)
      invariant Owner(curr, root, packages) == Owner(dir, root, packages)
      invariant found.None?
      decreases |curr|
    {
      if curr in packages {
        found := Some(packages[curr]);
        break;
      }
      if curr == root {
        break;
      }
      curr := Parent(curr);
    }
  }

  // ---------------------------------------------------------------------
  // Grouping of description files per package
  // ---------------------------------------------------------------------

  /** The package a globbed file is filed under, if it is a description with a (truthy) owner. */
  function Accept(file: Path, root: Path, packages: map<Path, string>, descriptions: set<Path>): Option<string>
  {
    if file !in descriptions then None
    else
      match Owner(Parent(file), root, packages)
      case Some(name) => if name != "" then Some(name) else None
      case None => None
  }

  /** The files filed under `pkg`, in the order the glob met them. */
  function FilesOf(files: seq<Path>, pkg: string, root: Path, packages: map<Path, string>,
                   descriptions: set<Path>): seq<Path>
  {
    if files == [] then []
    else
      var init := FilesOf(files[..|files| - 1], pkg, root, packages, descriptions);
      if Accept(files[|files| - 1], root, packages, descriptions) == Some(pkg) then init + [files[|files| - 1]] else init
  }

  /** The packages in the order their first file was met: the key order of `pkg_files`. */
  function PackageOrder(files: seq<Path>, root: Path, packages: map<Path, string>,
                        descriptions: set<Path>): seq<string>
  {
    if files == [] then []
    else
      var init := PackageOrder(files[..|files| - 1], root, packages, descriptions);
      match Accept(files[|files| - 1], root, packages, descriptions)
      case Some(p) => if p in init then init else init + [p]
      case None => init
  }

  /** A package's list holds exactly the globbed files filed under it. */
  lemma {:induction false} FilesOfMembers(files: seq<Path>, pkg: string, root: Path, packages: map<Path, string>,
                                          descriptions: set<Path>)
    ensures forall f :: f in FilesOf(files, pkg, root, packages, descriptions) <==>
              f in files && Accept(f, root, packages, descriptions) == Some(pkg)
    decreases |files|
  {
    if files != [] {
      FilesOfMembers(files[..|files| - 1], pkg, root, packages, descriptions);
      assert files == files[..|files| - 1] + [files[|files| - 1]];
    }
  }

  /** The order lists each package once, and exactly the packages with a non-empty list. */
  lemma {:induction false} PackageOrderMembers(files: seq<Path>, root: Path, packages: map<Path, string>,
                                               descriptions: set<Path>)
    ensures var order := PackageOrder(files, root, packages, descriptions);
            && (forall p :: p in order <==> FilesOf(files, p, root, packages, descriptions) != [])
            && (forall i, j :: 0 <= i < j < |order| ==> order[i] != order[j])
    decreases |files|
  {
    if files != [] {
      var init := files[..|files| - 1];
      PackageOrderMembers(init, root, packages, descriptions);
      var a := Accept(files[|files| - 1], root, packages, descriptions);
      forall p ensures FilesOf(files, p, root, packages, descriptions) != [] <==>
                         FilesOf(init, p, root, packages, descriptions) != [] || a == Some(p) {
      }
    }
  }

  /** One more globbed file: it extends its package's list, and the order when the package is new. */
  lemma GroupStep(files: seq<Path>, i: nat, root: Path, packages: map<Path, string>, descriptions: set<Path>)
    requires i < |files|
    ensures var order := PackageOrder(files[..i], root, packages, descriptions);
            match Accept(files[i], root, packages, descriptions)
            case Some(p) => PackageOrder(files[..i + 1], root, packages, descriptions)
                              == if p in order then order else order + [p]
            case None => PackageOrder(files[..i + 1], root, packages, descriptions) == order
    ensures forall p :: FilesOf(files[..i + 1], p, root, packages, descriptions)
              == FilesOf(files[..i], p, root, packages, descriptions)
                 + if Accept(files[i], root, packages, descriptions) == Some(p) then [files[i]] else []
  {
    assert files[..i + 1][..i] == files[..i];
  }

  /**
   * The per-package grouping of `main` (`pkg_files`, a dictionary of lists):
   * `order` is the key order of the dictionary.
   */
  method GroupByPackage(files: seq<Path>, root: Path, packages: map<Path, string>, descriptions: set<Path>)
    returns (order: seq<string>, groups: map<string, seq<Path>>)
    ensures order == PackageOrder(files, root, packages, descriptions)
    ensures forall p :: p in groups <==> p in order
    ensures forall p :: p in groups ==> groups[p] == FilesOf(files, p, root, packages, descriptions)
  {
    order, groups := [], map[];
    for i := 0 to |files|
      invariant order == PackageOrder(files[..i], root, packages, descriptions)
      invariant forall p :: p in groups <==> p in order
      invariant forall p :: p in groups ==> groups[p] == FilesOf(files[..i], p, root, packages, descriptions)
    {
      var file := files[i];
      GroupStep(files, i, root, packages, descriptions);
      if file !in descriptions {
        continue;
      }
      var found := OwningPackage(Parent(file), root, packages);
      if found.None? || found.value == "" {
        continue;
      }
      var pkg := found.value;
      assert Accept(file, root, packages, descriptions) == Some(pkg);
      if pkg !in groups {
        PackageOrderMembers(files[..i], root, packages, descriptions);
        order := order + [pkg];
        groups := groups[pkg := []];
      }
      groups := groups[pkg := groups[pkg] + [file]];
    }
    assert files[..|files|] == files;
  }

  /**
   * Every accepted file lands in exactly one list, its package's, and every
   * list is non-empty.
   */
  lemma GroupsPartition(files: seq<Path>, root: Path, packages: map<Path, string>, descriptions: set<Path>,
                        f: Path, p: string)
    requires f in files
    ensures f in FilesOf(files, p, root, packages, descriptions) <==>
              Accept(f, root, packages, descriptions) == Some(p)
    ensures p in PackageOrder(files, root, packages, descriptions) <==>
              FilesOf(files, p, root, packages, descriptions) != []
  {
    FilesOfMembers(files, p, root, packages, descriptions);
    PackageOrderMembers(files, root, packages, descriptions);
  }

  // ---------------------------------------------------------------------
  // Manifests
  // ---------------------------------------------------------------------

  datatype ConfigFile = ConfigFile(path: Path, kind: DescriptionKind)

  datatype Manifest = Manifest(fileName: string, packagePath: string, systemConfigFiles: seq<ConfigFile>)

  /** The description files of a package whose kind the name reveals, in order. */
  function ConfigFiles(files: seq<Path>): seq<ConfigFile>
  {
    if files == [] then []
    else
      var kind := InferKind(Basename(files[|files| - 1]));
      var init := ConfigFiles(files[..|files| - 1]);
      if kind == Unknown then init else init + [ConfigFile(files[|files| - 1], kind)]
  }

  /** The manifest lists exactly the files of known kind, each with its inferred kind. */
  lemma {:induction false} ConfigFilesMembers(files: seq<Path>)
    ensures |ConfigFiles(files)| <= |files|
    ensures forall c :: c in ConfigFiles(files) <==>
              c.path in files && c.kind == InferKind(Basename(c.path)) && c.kind != Unknown
    decreases |files|
  {
    if files != [] {
      ConfigFilesMembers(files[..|files| - 1]);
      assert files == files[..|files| - 1] + [files[|files| - 1]];
    }
  }

  /**
   * The list is built file by file, in order: the entries of a concatenation
   * are those of the first part followed by those of the second, and one file
   * contributes one entry exactly when its kind is known.  Together these fix
   * the order and the multiplicity of the entries.
   */
  lemma {:induction false} ConfigFilesInOrder(a: seq<Path>, b: seq<Path>)
    ensures ConfigFiles(a + b) == ConfigFiles(a) + ConfigFiles(b)
    decreases |b|
  {
    if b != [] {
      var b0 := b[..|b| - 1];
      ConfigFilesInOrder(a, b0);
      assert (a + b)[..|a + b| - 1] == a + b0;
      assert (a + b)[|a + b| - 1] == b[|b| - 1];
    } else {
      assert a + b == a;
    }
  }

  /** One file yields one entry with its kind, or none when the kind is unknown. */
  lemma ConfigFilesOfOne(f: Path)
    ensures |ConfigFiles([f])| <= 1
    ensures ConfigFiles([f]) == [] <==> InferKind(Basename(f)) == Unknown
    ensures ConfigFiles([f]) != [] ==> ConfigFiles([f])[0] == ConfigFile(f, InferKind(Basename(f)))
  {
    assert [f][..0] == [];
  }

  const ShareDir := "share"
  const ManifestSuffix := ".yaml"

  /** `os.path.join(install_prefix, "share", pkg)`: where the installed package lives. */
  function PackagePath(installPrefix: string, pkg: string): string
  {
    PathJoin(PathJoin(installPrefix, ShareDir), pkg)
  }

  /** With a plain install prefix, the package path is `PREFIX/share/PKG`. */
  lemma PackagePathShape(installPrefix: string, pkg: string)
    requires installPrefix != "" && !EndsWith(installPrefix, "/") && !StartsWith(pkg, "/")
    ensures PackagePath(installPrefix, pkg) == installPrefix + "/share/" + pkg
  {
    var share := PathJoin(installPrefix, ShareDir);
    assert share == installPrefix + "/share";
    assert share[|share| - 1] == 'e';
  }

  /**
   * The manifest of package `pkg` whose description files are `files`:
   * written to `{output_dir}/{pkg}.yaml`, with `package_path` below the
   * install prefix's `share` directory.
   */
  function ManifestFor(pkg: string, files: seq<Path>, installPrefix: string, outputDir: string): Manifest
  {
    Manifest(PathJoin(outputDir, pkg + ManifestSuffix), PackagePath(installPrefix, pkg), ConfigFiles(files))
  }

  /**
   * One manifest: `{output_dir}/{pkg}.yaml`, with `package_path` and the
   * list `system_config_files` filled by appending.
   */
  method BuildManifest(pkg: string, files: seq<Path>, installPrefix: string, outputDir: string)
    returns (m: Manifest)
    ensures m == ManifestFor(pkg, files, installPrefix, outputDir)
    ensures forall i :: 0 <= i < |m.systemConfigFiles| ==> m.systemConfigFiles[i].kind != Unknown
  {
    var configFiles: seq<ConfigFile> := [];
    for i := 0 to |files|
      invariant configFiles == ConfigFiles(files[..i])
    {
      assert files[..i + 1][..i] == files[..i];
      var kind := InferKind(Basename(files[i]));
      if kind == Unknown {
        continue;
      }
      configFiles := configFiles + [ConfigFile(files[i], kind)];
    }
    assert files[..|files|] == files;
    m := Manifest(PathJoin(outputDir, pkg + ManifestSuffix), PackagePath(installPrefix, pkg), configFiles);
    ConfigFilesMembers(files);
    assert forall i :: 0 <= i < |configFiles| ==> configFiles[i] in configFiles;
  }

  /** The manifests of the packages of `order`, in that order. */
  function ManifestsFor(order: seq<string>, groups: map<string, seq<Path>>, installPrefix: string,
                        outputDir: string): (ms: seq<Manifest>)
    requires forall k :: 0 <= k < |order| ==> order[k] in groups
    ensures |ms| == |order|
  {
    if order == [] then []
    else
      ManifestsFor(order[..|order| - 1], groups, installPrefix, outputDir)
      + [ManifestFor(order[|order| - 1], groups[order[|order| - 1]], installPrefix, outputDir)]
  }

  /** The i-th manifest is that of the i-th package of the order. */
  lemma {:induction false} ManifestsForAt(order: seq<string>, groups: map<string, seq<Path>>, installPrefix: string,
                                          outputDir: string, i: nat)
    requires forall k :: 0 <= k < |order| ==> order[k] in groups
    requires i < |order|
    ensures ManifestsFor(order, groups, installPrefix, outputDir)[i]
              == ManifestFor(order[i], groups[order[i]], installPrefix, outputDir)
    decreases |order|
  {
    var n := |order| - 1;
    var init := order[..n];
    var rest := ManifestsFor(init, groups, installPrefix, outputDir);
    var last := ManifestFor(order[n], groups[order[n]], installPrefix, outputDir);
    assert ManifestsFor(order, groups, installPrefix, outputDir) == rest + [last];
    if i < n {
      ManifestsForAt(init, groups, installPrefix, outputDir, i);
      assert init[i] == order[i];
      assert (rest + [last])[i] == rest[i];
    } else {
      assert (rest + [last])[i] == last;
    }
  }

  /** One more package, one more manifest at the end. */
  lemma ManifestsForStep(order: seq<string>, groups: map<string, seq<Path>>, installPrefix: string,
                         outputDir: string, i: nat)
    requires forall k :: 0 <= k < |order| ==> order[k] in groups
    requires i < |order|
    ensures ManifestsFor(order[..i + 1], groups, installPrefix, outputDir)
              == ManifestsFor(order[..i], groups, installPrefix, outputDir)
                 + [ManifestFor(order[i], groups[order[i]], installPrefix, outputDir)]
  {
    var prefix := order[..i + 1];
    assert prefix[..i] == order[..i] && prefix[i] == order[i];
  }

  /** The manifests of all grouped packages, in the dictionary's order. */
  method BuildManifests(order: seq<string>, groups: map<string, seq<Path>>, installPrefix: string, outputDir: string)
    returns (ms: seq<Manifest>)
    requires forall k :: 0 <= k < |order| ==> order[k] in groups
    ensures ms == ManifestsFor(order, groups, installPrefix, outputDir)
  {
    ms := [];
    for i := 0 to |order|
      invariant ms == ManifestsFor(order[..i], groups, installPrefix, outputDir)
    {
      ManifestsForStep(order, groups, installPrefix, outputDir, i);
      var m := BuildManifest(order[i], groups[order[i]], installPrefix, outputDir);
      ms := ms + [m];
    }
    assert order[..|order|] == order;
  }

}

=== FILE: json.dfy ===
/**
 * JSON values as the schema tools see them after `json.load`, together with
 * the few Python operations the tools apply to them: `key in v`, `v[key]`,
 * `v.get(key)`, `v.items()` and dictionary assignment `d[key] = value`.
 *
 * An object is an ordered sequence of members, in the order `json.load`
 * produced them (Python dictionaries keep insertion order).  Numbers,
 * booleans and null are opaque atoms: nothing in the tools looks inside them.
 */
module Json {

  import opened Strings
  import opened Wrappers

  datatype Json =
    | Obj(members: seq<Member>)
    | Arr(items: seq<Json>)
    | Str(s: string)
    | Atom(id: nat)

  datatype Member = Member(key: string, value: Json)

  /** The Python exceptions the modelled code can raise. */
  datatype PyError =
    | TypeError        // `in` on a number, bool or None; indexing a list or str with a str
    | KeyError         // `d[k]` with `k` missing
    | AttributeError   // `.get` / `.items` on something that is not a dict
    | RecursionError   // the interpreter's recursion limit was reached
    | LoadError        // a file is missing or is not valid JSON
    | WriteError       // an output file could not be written

  datatype Result<T> = Ok(value: T) | Err(error: PyError) {
    predicate IsFailure() { Err? }
    function PropagateFailure<U>(): Result<U>
      requires Err?
    {
      Err(error)
    }
    function Extract(): T
      requires Ok?
    {
      value
    }
  }

  /** The keys of an object, in order. */
  function Keys(ms: seq<Member>): (ks: seq<string>)
    ensures |ks| == |ms|
    ensures forall i :: 0 <= i < |ms| ==> ks[i] == ms[i].key
  {
    if ms == [] then [] else [ms[0].key] + Keys(ms[1..])
  }

  /** Python dictionaries never repeat a key. */
  predicate DistinctKeys(ms: seq<Member>)
  {
    forall i, j :: 0 <= i < j < |ms| ==> ms[i].key != ms[j].key
  }

  /** A structural size, used to bound recursion over nested values. */
  function Size(v: Json): nat
  {
    match v
    case Obj(ms) => 1 + MembersSize(ms)
    case Arr(items) => 1 + ItemsSize(items)
    case _ => 1
  }

  function MembersSize(ms: seq<Member>): nat
  {
    if ms == [] then 0 else 1 + Size(ms[0].value) + MembersSize(ms[1..])
  }

  function ItemsSize(items: seq<Json>): nat
  {
    if items == [] then 0 else 1 + Size(items[0]) + ItemsSize(items[1..])
  }

  /**
   * The nesting depth: the number of recursive calls a walk that descends
   * into every dictionary value and list element makes along the deepest path.
   */
  function Depth(v: Json): nat
  {
    match v
    case Obj(ms) => 1 + MembersDepth(ms)
    case Arr(items) => 1 + ItemsDepth(items)
    case _ => 1
  }

  /** The greatest depth of the values, or 0 when there are none. */
  function MembersDepth(ms: seq<Member>): nat
  {
    if ms == [] then 0
    else
      var d, rest := Depth(ms[0].value), MembersDepth(ms[1..]);
      if d < rest then rest else d
  }

  /** The greatest depth of the elements, or 0 when there are none. */
  function ItemsDepth(items: seq<Json>): nat
  {
    if items == [] then 0
    else
      var d, rest := Depth(items[0]), ItemsDepth(items[1..]);
      if d < rest then rest else d
  }

  /** The value stored under `key`, looked up as a dictionary would. */
  function Get(ms: seq<Member>, key: string): (r: Option<Json>)
    ensures r.Some? <==> key in Keys(ms)
    ensures r.Some? ==> Size(r.value) < MembersSize(ms)
    ensures r.Some? ==> exists i :: 0 <= i < |ms| && ms[i] == Member(key, r.value)
  {
    if ms == [] then None
    else if ms[0].key == key then Some(ms[0].value)
    else
      var r := Get(ms[1..], key);
      assert r.Some? ==> exists i :: 0 <= i < |ms| - 1 && ms[1..][i] == Member(key, r.value);
      assert Keys(ms) == [ms[0].key] + Keys(ms[1..]);
      r
  }

  /** In an object without repeated keys, every member is what `Get` finds. */
  lemma {:induction false} GetMember(ms: seq<Member>, i: nat)
    requires DistinctKeys(ms) && i < |ms|
    ensures Get(ms, ms[i].key) == Some(ms[i].value)
  {
    if i > 0 {
      DistinctTail(ms);
      assert ms[0].key != ms[i].key;
      GetMember(ms[1..], i - 1);
      assert ms[1..][i - 1] == ms[i];
    }
  }

  lemma DistinctTail(ms: seq<Member>)
    requires DistinctKeys(ms) && ms != []
    ensures DistinctKeys(ms[1..]) && ms[0].key !in Keys(ms[1..])
  {
    forall a, b | 0 <= a < b < |ms| - 1 ensures ms[1..][a].key != ms[1..][b].key {
      assert ms[1..][a] == ms[a + 1] && ms[1..][b] == ms[b + 1];
    }
  }

  /** Python's `d[key] = value`. */
  function Put(ms: seq<Member>, key: string, value: Json): seq<Member>
  {
    if ms == [] then [Member(key, value)]
    else if ms[0].key == key then [Member(key, value)] + ms[1..]
    else [ms[0]] + Put(ms[1..], key, value)
  }

  /** An existing key keeps its position; a new key is appended. */
  lemma {:induction false} PutKeys(ms: seq<Member>, key: string, value: Json)
    ensures Keys(Put(ms, key, value)) == if key in Keys(ms) then Keys(ms) else Keys(ms) + [key]
  {
    if ms != [] {
      assert Keys(ms) == [ms[0].key] + Keys(ms[1..]);
      var r := Put(ms, key, value);
      if ms[0].key == key {
        assert Keys(r) == [key] + Keys(ms[1..]);
      } else {
        PutKeys(ms[1..], key, value);
        assert r[1..] == Put(ms[1..], key, value);
        assert Keys(r) == [ms[0].key] + Keys(Put(ms[1..], key, value));
      }
    }
  }

  /** The key now maps to the new value; every other key keeps its value. */
  lemma {:induction false} PutGet(ms: seq<Member>, key: string, value: Json, k: string)
    ensures Get(Put(ms, key, value), k) == if k == key then Some(value) else Get(ms, k)
  {
    if ms != [] && ms[0].key != key {
      PutGet(ms[1..], key, value, k);
      assert Put(ms, key, value)[1..] == Put(ms[1..], key, value);
    }
  }

  /** Assignment keeps a dictionary free of repeated keys. */
  lemma PutDistinct(ms: seq<Member>, key: string, value: Json)
    requires DistinctKeys(ms)
    ensures DistinctKeys(Put(ms, key, value))
  {
    var r := Put(ms, key, value);
    PutKeys(ms, key, value);
    forall i, j | 0 <= i < j < |r| ensures r[i].key != r[j].key {
      assert Keys(r)[i] == r[i].key && Keys(r)[j] == r[j].key;
      if key !in Keys(ms) && j == |ms| {
        assert r[i].key == Keys(ms)[i];
      } else {
        assert r[i].key == Keys(ms)[i] == ms[i].key;
        assert r[j].key == Keys(ms)[j] == ms[j].key;
      }
    }
  }

  /** Python's `key in v` for a string `key`, on whatever `v` holds. */
  function In(v: Json, key: string): (r: Result<bool>)
    ensures v.Obj? ==> r == Ok(key in Keys(v.members))
    ensures r.Err? <==> v.Atom?
  {
    match v
    case Obj(ms) => Ok(key in Keys(ms))
    case Arr(items) => Ok(Str(key) in items)
    case Str(s) => Ok(IsSubstring(key, s))
    case Atom(_) => Err(TypeError)
  }

  /** Python's `v[key]` for a string `key`. */
  function Index(v: Json, key: string): (r: Result<Json>)
    ensures r.Ok? <==> v.Obj? && key in Keys(v.members)
    ensures r.Ok? ==> Size(r.value) < Size(v) && Get(v.members, key) == Some(r.value)
  {
    if !v.Obj? then Err(TypeError)
    else if key in Keys(v.members) then Ok(Get(v.members, key).value)
    else Err(KeyError)
  }

  /** Python's `v.get(key)`: only dictionaries have it. */
  function DictGet(v: Json, key: string): (r: Result<Option<Json>>)
    ensures r.Ok? <==> v.Obj?
    ensures r.Ok? ==> r.value == Get(v.members, key)
  {
    if v.Obj? then Ok(Get(v.members, key)) else Err(AttributeError)
  }

  /** Python's `v.items()`: only dictionaries have it. */
  function Items(v: Json): (r: Result<seq<Member>>)
    ensures r.Ok? <==> v.Obj?
    ensures r.Ok? ==> r.value == v.members && MembersSize(r.value) < Size(v)
  {
    if v.Obj? then Ok(v.members) else Err(AttributeError)
  }
}

=== FILE: param_batch.dfy ===
/**
 * The batch driver of the parameter generator (`parameter_process.py`):
 * every `*.schema.json` file of a directory is loaded, its references are
 * resolved with the file itself as root, its defaults are extracted, and the
 * result is written to `NAME.param.yaml`.  A file that fails for any reason
 * is counted as a failure and the batch goes on; the exit status is 0 only
 * when the directory exists, holds at least one schema file, and every file
 * succeeded.
 *
 * The file system is a parameter: the directory listing (None when the
 * directory does not exist), the documents by file name, and the set of
 * output names that cannot be written.
 */
module ParamBatch {

  import opened Strings
  import opened Wrappers
  import opened Json
  import RefResolver
  import DefaultsExtractor

  const SchemaGlobSuffix := ".schema.json"
  const SchemaSuffix := ".schema"
  const OutputSuffix := ".param.yaml"

  /** Python's `s.rfind(c)`: the last position of `c`, or -1. */
  function RFind(s: string, c: char): (i: int)
    ensures -1 <= i < |s|
    ensures i >= 0 ==> s[i] == c && c !in s[i + 1..]
    ensures i == -1 <==> c !in s
  {
    if s == [] then -1
    else if s[|s| - 1] == c then
      assert s[|s|..] == [];
      |s| - 1
    else
      var i := RFind(s[..|s| - 1], c);
      assert s == s[..|s| - 1] + [s[|s| - 1]];
      if i >= 0 then
        assert s[i + 1..] == s[..|s| - 1][i + 1..] + [s[|s| - 1]];
        i
      else i
  }

  /**
   * `PurePath.stem`: the name without its last suffix, where a suffix starts
   * at the last dot, provided that dot is neither the first nor the last
   * character.
   */
  function Stem(name: string): (r: string)
    ensures StartsWith(name, r)
  {
    var i := RFind(name, '.');
    if 0 < i < |name| - 1 then name[..i] else name
  }

  /** `_save_yaml`'s file name: the stem, less a trailing `.schema`, plus `.param.yaml`. */
  function OutputName(schemaFile: string): (r: string)
    ensures EndsWith(r, OutputSuffix)
  {
    var stem := Stem(schemaFile);
    var base := if EndsWith(stem, SchemaSuffix) then stem[..|stem| - |SchemaSuffix|] else stem;
    assert (base + OutputSuffix)[|base|..] == OutputSuffix;
    base + OutputSuffix
  }

  /** A name whose last dot is neither first nor last loses the suffix from that dot on. */
  lemma StemOfDotted(base: string, ext: string)
    requires base != "" && ext != "" && '.' !in ext
    ensures Stem(base + "." + ext) == base
  {
    var name := base + "." + ext;
    assert name[|base|] == '.';
    assert name[|base| + 1..] == ext;
    assert name[..|base|] == base;
  }

  /** A name ending in its last dot keeps that dot: `a.` is its own stem. */
  lemma StemTrailingDot(base: string)
    ensures Stem(base + ".") == base + "."
  {
  }

  /** A name without a dot is its own stem. */
  lemma StemUndotted(name: string)
    requires '.' !in name
    ensures Stem(name) == name
  {
  }

  /** A name starting with its only dot (a hidden file such as `.json`) is its own stem. */
  lemma StemLeadingDot(rest: string)
    requires '.' !in rest
    ensures Stem("." + rest) == "." + rest
  {
    var name := "." + rest;
    assert name[1..] == rest;
    assert RFind(name, '.') == 0;
  }

  /** A stem not ending in `.schema` is kept whole: the output is the stem plus `.param.yaml`. */
  lemma OutputNameOfPlainStem(name: string)
    requires !EndsWith(Stem(name), SchemaSuffix)
    ensures OutputName(name) == Stem(name) + OutputSuffix
  {
  }

  /** A stem ending in `.schema` loses exactly those seven characters. */
  lemma OutputNameOfSchemaStem(name: string)
    requires EndsWith(Stem(name), SchemaSuffix)
    ensures Stem(name) == OutputName(name)[..|OutputName(name)| - |OutputSuffix|] + SchemaSuffix
  {
    var stem := Stem(name);
    var base := stem[..|stem| - |SchemaSuffix|];
    assert OutputName(name) == base + OutputSuffix;
    assert (base + OutputSuffix)[..|base|] == base;
    assert stem == base + stem[|stem| - |SchemaSuffix|..];
  }

  /** `BASE.EXT` is written to `BASE.param.yaml` when BASE does not end in `.schema` (`node_b.json`). */
  lemma OutputNameOfDotted(base: string, ext: string)
    requires base != "" && ext != "" && '.' !in ext && !EndsWith(base, SchemaSuffix)
    ensures OutputName(base + "." + ext) == base + OutputSuffix
  {
    StemOfDotted(base, ext);
    OutputNameOfPlainStem(base + "." + ext);
  }

  /** A name without a dot gets `.param.yaml` appended (`b` is written to `b.param.yaml`). */
  lemma OutputNameOfUndotted(name: string)
    requires '.' !in name
    ensures OutputName(name) == name + OutputSuffix
  {
    StemUndotted(name);
    assert !EndsWith(name, SchemaSuffix) by {
      if |SchemaSuffix| <= |name| {
        assert name[|name| - |SchemaSuffix|] in name;
      }
    }
    OutputNameOfPlainStem(name);
  }

  /** The schema file `BASE.schema.json` is written to `BASE.param.yaml`. */
  lemma OutputNameOfSchema(base: string)
    ensures OutputName(base + SchemaGlobSuffix) == base + OutputSuffix
  {
    var name := base + SchemaGlobSuffix;
    var dot := |base| + 7;
    assert name[dot] == '.';
    assert name[dot + 1..] == "json";
    var i := RFind(name, '.');
    assert i == dot;
    var stem := name[..dot];
    assert stem == base + SchemaSuffix;
    assert stem[|stem| - 7..] == SchemaSuffix;
    assert stem[..|stem| - 7] == base;
  }

  /** Two schema files of one directory never share an output file. */
  lemma OutputNamesDistinct(a: string, b: string)
    requires EndsWith(a, SchemaGlobSuffix) && EndsWith(b, SchemaGlobSuffix)
    requires a != b
    ensures OutputName(a) != OutputName(b)
  {
    var baseA, baseB := a[..|a| - 12], b[..|b| - 12];
    assert a == baseA + SchemaGlobSuffix;
    assert b == baseB + SchemaGlobSuffix;
    OutputNameOfSchema(baseA);
    OutputNameOfSchema(baseB);
    assert baseA == (baseA + OutputSuffix)[..|baseA|];
    assert baseB == (baseB + OutputSuffix)[..|baseB|];
  }

  /** `schema_dir.glob("*.schema.json")`, in listing order. */
  function SchemaFiles(listing: seq<string>): (r: seq<string>)
    ensures forall f :: f in r <==> f in listing && EndsWith(f, SchemaGlobSuffix)
    ensures |r| <= |listing|
  {
    if listing == [] then []
    else
      var last := listing[|listing| - 1];
      var init := SchemaFiles(listing[..|listing| - 1]);
      assert listing == listing[..|listing| - 1] + [last];
      if EndsWith(last, SchemaGlobSuffix) then init + [last] else init
  }

  /** What a successful conversion leaves on disk. */
  datatype Output = Output(fileName: string, content: DefaultsExtractor.Envelope)

  /**
   * `SchemaToRosParamConverter.process` for one file: load, resolve with the
   * document as its own root, extract, write.  `fuel` is the recursion limit.
   */
  function Convert(docs: RefResolver.Documents, schemaFile: string, packageName: Option<string>,
                   fuel: nat, unwritable: set<string>): (r: Result<Output>)
    ensures r.Ok? ==> r.value.fileName == OutputName(schemaFile) && r.value.fileName !in unwritable
    ensures schemaFile !in docs || docs[schemaFile].None? ==> r == Err(LoadError)
  {
    if schemaFile !in docs || docs[schemaFile].None? then Err(LoadError)
    else
      var schema := docs[schemaFile].value;
      var resolved :- RefResolver.Resolve(docs, schema, schema, fuel);
      var envelope :- DefaultsExtractor.ExtractDefaults(resolved, packageName);
      var fileName := OutputName(schemaFile);
      if fileName in unwritable then Err(WriteError)
      else Ok(Output(fileName, envelope))
  }

  /** The outputs of the files that convert successfully, in order. */
  function Written(docs: RefResolver.Documents, files: seq<string>, packageName: Option<string>,
                   fuel: nat, unwritable: set<string>): (r: seq<Output>)
    ensures |r| <= |files|
  {
    if files == [] then []
    else
      var init := Written(docs, files[..|files| - 1], packageName, fuel, unwritable);
      match Convert(docs, files[|files| - 1], packageName, fuel, unwritable)
      case Ok(out) => init + [out]
      case Err(_) => init
  }

  predicate AllConvert(docs: RefResolver.Documents, files: seq<string>, packageName: Option<string>,
                      fuel: nat, unwritable: set<string>)
  {
    forall f :: f in files ==> Convert(docs, f, packageName, fuel, unwritable).Ok?
  }

  /** Every file counts as a success exactly when all of them convert. */
  lemma {:induction false} AllWritten(docs: RefResolver.Documents, files: seq<string>, packageName: Option<string>,
                                      fuel: nat, unwritable: set<string>)
    ensures |Written(docs, files, packageName, fuel, unwritable)| == |files| <==>
              AllConvert(docs, files, packageName, fuel, unwritable)
  {
    if files != [] {
      var init, last := files[..|files| - 1], files[|files| - 1];
      AllWritten(docs, init, packageName, fuel, unwritable);
      assert files == init + [last];
      assert AllConvert(docs, files, packageName, fuel, unwritable) <==>
             AllConvert(docs, init, packageName, fuel, unwritable) && Convert(docs, last, packageName, fuel, unwritable).Ok?;
    }
  }

  /** Each output comes from a file of the batch and carries that file's output name. */
  lemma {:induction false} WrittenFromFiles(docs: RefResolver.Documents, files: seq<string>, packageName: Option<string>,
                                            fuel: nat, unwritable: set<string>)
    ensures forall o :: o in Written(docs, files, packageName, fuel, unwritable) ==>
              exists f :: f in files && Convert(docs, f, packageName, fuel, unwritable) == Ok(o)
  {
    if files != [] {
      var init := files[..|files| - 1];
      WrittenFromFiles(docs, init, packageName, fuel, unwritable);
      assert forall f :: f in init ==> f in files;
    }
  }

  /** The files of the batch that fail, in order: each is logged and counted as a failure. */
  function Failed(docs: RefResolver.Documents, files: seq<string>, packageName: Option<string>,
                  fuel: nat, unwritable: set<string>): seq<string>
  {
    if files == [] then []
    else
      var init := Failed(docs, files[..|files| - 1], packageName, fuel, unwritable);
      if Convert(docs, files[|files| - 1], packageName, fuel, unwritable).Ok? then init
      else init + [files[|files| - 1]]
  }

  /**
   * Failures are isolated: every file that converts has its output written,
   * whatever the other files do, and the failed files are exactly those that
   * do not convert.
   */
  lemma {:induction false} WrittenComplete(docs: RefResolver.Documents, files: seq<string>, packageName: Option<string>,
                                           fuel: nat, unwritable: set<string>)
    ensures forall f :: f in files && Convert(docs, f, packageName, fuel, unwritable).Ok? ==>
              Convert(docs, f, packageName, fuel, unwritable).value in Written(docs, files, packageName, fuel, unwritable)
    ensures forall f :: f in Failed(docs, files, packageName, fuel, unwritable) <==>
              f in files && Convert(docs, f, packageName, fuel, unwritable).Err?
  {
    if files != [] {
      var init, last := files[..|files| - 1], files[|files| - 1];
      WrittenComplete(docs, init, packageName, fuel, unwritable);
      assert files == init + [last];
    }
  }

  /** Every file is either a success or a failure: the successes are the files less the failures. */
  lemma {:induction false} WrittenCount(docs: RefResolver.Documents, files: seq<string>, packageName: Option<string>,
                                        fuel: nat, unwritable: set<string>)
    ensures |Written(docs, files, packageName, fuel, unwritable)|
              == |files| - |Failed(docs, files, packageName, fuel, unwritable)|
  {
    if files != [] {
      WrittenCount(docs, files[..|files| - 1], packageName, fuel, unwritable);
    }
  }

  predicate NoRepeats(names: seq<string>)
  {
    forall i, j :: 0 <= i < j < |names| ==> names[i] != names[j]
  }

  /** No two outputs go to the same file. */
  predicate DistinctFileNames(out: seq<Output>)
  {
    forall i, j :: 0 <= i < j < |out| ==> out[i].fileName != out[j].fileName
  }

  /** The glob of a listing without repeated names repeats no name either. */
  lemma {:induction false} SchemaFilesNoRepeats(listing: seq<string>)
    requires NoRepeats(listing)
    ensures NoRepeats(SchemaFiles(listing))
  {
    if listing != [] {
      var init, last := listing[..|listing| - 1], listing[|listing| - 1];
      SchemaFilesNoRepeats(init);
      forall k | 0 <= k < |init| ensures init[k] != last {
        assert listing[k] != listing[|listing| - 1];
      }
      assert last !in SchemaFiles(init);
    }
  }

  /** A schema file not in the batch has an output name none of the batch's outputs uses. */
  lemma OutputNameUnused(docs: RefResolver.Documents, files: seq<string>, packageName: Option<string>,
                         fuel: nat, unwritable: set<string>, other: string)
    requires forall f :: f in files ==> EndsWith(f, SchemaGlobSuffix)
    requires EndsWith(other, SchemaGlobSuffix) && other !in files
    ensures forall o :: o in Written(docs, files, packageName, fuel, unwritable) ==> o.fileName != OutputName(other)
  {
    WrittenFromFiles(docs, files, packageName, fuel, unwritable);
    forall o | o in Written(docs, files, packageName, fuel, unwritable) ensures o.fileName != OutputName(other) {
      var f :| f in files && Convert(docs, f, packageName, fuel, unwritable) == Ok(o);
      OutputNamesDistinct(f, other);
    }
  }

  /** Distinct schema files write pairwise different output files, in any batch. */
  lemma {:induction false} WrittenNamesDistinct(docs: RefResolver.Documents, files: seq<string>, packageName: Option<string>,
                                                fuel: nat, unwritable: set<string>)
    requires NoRepeats(files)
    requires forall f :: f in files ==> EndsWith(f, SchemaGlobSuffix)
    ensures DistinctFileNames(Written(docs, files, packageName, fuel, unwritable))
  {
    if files != [] {
      var init, last := files[..|files| - 1], files[|files| - 1];
      assert NoRepeats(init);
      WrittenNamesDistinct(docs, init, packageName, fuel, unwritable);
      var prev := Written(docs, init, packageName, fuel, unwritable);
      var c := Convert(docs, last, packageName, fuel, unwritable);
      if c.Ok? {
        var out := Written(docs, files, packageName, fuel, unwritable);
        assert out == prev + [c.value];
        forall k | 0 <= k < |init| ensures init[k] != last {
          assert files[k] != files[|files| - 1];
        }
        OutputNameUnused(docs, init, packageName, fuel, unwritable, last);
        forall i, j | 0 <= i < j < |out| ensures out[i].fileName != out[j].fileName {
          assert out[i] == prev[i] && prev[i] in prev;
          if j < |prev| {
            assert out[j] == prev[j];
          }
        }
      } else {
        assert Written(docs, files, packageName, fuel, unwritable) == prev;
      }
    }
  }

  /**
   * The outputs of one batch go to pairwise different files, so none
   * overwrites another: a directory listing never repeats a name.
   */
  lemma WrittenDistinct(docs: RefResolver.Documents, listing: seq<string>, packageName: Option<string>,
                        fuel: nat, unwritable: set<string>)
    requires NoRepeats(listing)
    ensures DistinctFileNames(Written(docs, SchemaFiles(listing), packageName, fuel, unwritable))
  {
    SchemaFilesNoRepeats(listing);
    WrittenNamesDistinct(docs, SchemaFiles(listing), packageName, fuel, unwritable);
  }

  /** One more file of the batch adds its output, if it converts, after those before it. */
  lemma WrittenStep(docs: RefResolver.Documents, files: seq<string>, i: nat, packageName: Option<string>,
                    fuel: nat, unwritable: set<string>)
    requires i < |files|
    ensures Written(docs, files[..i + 1], packageName, fuel, unwritable)
              == Written(docs, files[..i], packageName, fuel, unwritable)
                 + match Convert(docs, files[i], packageName, fuel, unwritable)
                   case Ok(out) => [out]
                   case Err(_) => []
  {
    assert files[..i + 1][..i] == files[..i];
  }

  /**
   * `main`: `listing` is None when the schema directory does not exist.
   * Returns the exit status, the success count that `main` reports, and the
   * outputs in the order they were written.
   */
  method RunBatch(listing: Option<seq<string>>, docs: RefResolver.Documents, packageName: Option<string>,
                  fuel: nat, unwritable: set<string>)
    returns (exitCode: nat, successCount: nat, outputs: seq<Output>)
    ensures listing.None? ==> exitCode == 1 && successCount == 0 && outputs == []
    ensures listing.Some? ==>
              var files := SchemaFiles(listing.value);
              && outputs == Written(docs, files, packageName, fuel, unwritable)
              && successCount == |outputs| == |files| - |Failed(docs, files, packageName, fuel, unwritable)|
              && (exitCode == 0 <==> files != [] && successCount == |files|)
    ensures exitCode <= 1
  {
    if listing.None? {
      return 1, 0, [];
    }
    var files := SchemaFiles(listing.value);
    if files == [] {
      return 1, 0, [];
    }
    successCount := 0;
    outputs := [];
    for i := 0 to |files|
      invariant outputs == Written(docs, files[..i], packageName, fuel, unwritable)
      invariant successCount == |outputs|
    {
      WrittenStep(docs, files, i, packageName, fuel, unwritable);
      var result := Convert(docs, files[i], packageName, fuel, unwritable);
      if result.Ok? {
        successCount := successCount + 1;
        outputs := outputs + [result.value];
      }
    }
    assert files[..|files|] == files;
    WrittenCount(docs, files, packageName, fuel, unwritable);
    exitCode := if successCount != |files| then 1 else 0;
  }

  /** The exit status is 0 exactly when the directory has schema files and every one converts. */
  lemma ExitStatus(listing: seq<string>, docs: RefResolver.Documents, packageName: Option<string>,
                   fuel: nat, unwritable: set<string>)
    ensures var files := SchemaFiles(listing);
            |Written(docs, files, packageName, fuel, unwritable)| == |files| <==>
              forall f | f in listing && EndsWith(f, SchemaGlobSuffix) ::
                Convert(docs, f, packageName, fuel, unwritable).Ok?
  {
    var files := SchemaFiles(listing);
    AllWritten(docs, files, packageName, fuel, unwritable);
  }
}

=== FILE: path_rewriter.dfy ===
/**
 * Package-relative resource paths in default values
 * (`SchemaToRosParamConverter._process_default_value_path`).
 *
 * With a package name, a string default that looks like a path inside the
 * package (it is not absolute, is not already a substitution `$(...)`, and
 * either contains a `/` or ends in a resource extension) is prefixed with the
 * launch substitution `$(find-pkg-share PACKAGE)/`.
 */
module PathRewriter {

  import opened Strings
  import opened Wrappers
  import opened Json

  const ResourceExtensions: seq<string> := [".yaml", ".json", ".pcd", ".onnx", ".xml"]

  /** Python's `s.endswith(tuple_of_suffixes)`. */
  predicate EndsWithAny(s: string, suffixes: seq<string>)
  {
    exists i :: 0 <= i < |suffixes| && EndsWith(s, suffixes[i])
  }

  /**
   * The string test of the rewrite (`'/' in s` is Python's substring test
   * with a one-character needle, see `Strings.SingleCharSubstring`).
   */
  predicate LooksPackageRelative(s: string)
  {
    && !StartsWith(s, "/")
    && !StartsWith(s, "$(")
    && ('/' in s || EndsWithAny(s, ResourceExtensions))
  }

  function ShareExpression(packageName: string): string
  {
    "$(find-pkg-share " + packageName + ")/"
  }

  /** A package name is used only when it is truthy: present and non-empty. */
  predicate Truthy(packageName: Option<string>)
  {
    packageName.Some? && packageName.value != ""
  }

  /** `_process_default_value_path`. */
  function Rewrite(value: Json, packageName: Option<string>): Json
  {
    if value.Str? && Truthy(packageName) && LooksPackageRelative(value.s) then
      Str(ShareExpression(packageName.value) + value.s)
    else value
  }

  /**
   * Non-strings and values seen without a package name pass through; a
   * rewritten value is still a string, ends with the original one and
   * starts with `$(`.
   */
  lemma RewriteShape(value: Json, packageName: Option<string>)
    ensures !Truthy(packageName) || !value.Str? ==> Rewrite(value, packageName) == value
    ensures Rewrite(value, packageName).Str? <==> value.Str?
    ensures Rewrite(value, packageName) != value ==>
              EndsWith(Rewrite(value, packageName).s, value.s) && StartsWith(Rewrite(value, packageName).s, "$(")
  {
    var r := Rewrite(value, packageName);
    if r != value {
      assert r.s[|r.s| - |value.s|..] == value.s;
      assert r.s[..2] == "$(";
    }
  }

  /**
   * Rewriting twice is rewriting once: a rewritten value starts with `$(`,
   * which the test rejects.
   */
  lemma RewriteIdempotent(value: Json, packageName: Option<string>)
    ensures Rewrite(Rewrite(value, packageName), packageName) == Rewrite(value, packageName)
  {
    var once := Rewrite(value, packageName);
    RewriteShape(value, packageName);
    if once != value {
      assert !LooksPackageRelative(once.s);
    }
  }

  /** The rewrite happens exactly when all of its conditions hold. */
  lemma RewriteExactly(value: Json, packageName: Option<string>)
    ensures Rewrite(value, packageName) != value <==>
              value.Str? && Truthy(packageName) && LooksPackageRelative(value.s)
    ensures Rewrite(value, packageName) != value ==>
              Rewrite(value, packageName).s == ShareExpression(packageName.value) + value.s
  {
  }

  /** A string whose first character is neither `/` nor `$` passes the two prefix tests. */
  lemma NotRootedOrSubstituted(s: string)
    requires s != [] && s[0] != '/' && s[0] != '$'
    ensures !StartsWith(s, "/") && !StartsWith(s, "$(")
  {
    assert "/"[0] == '/' && "$("[0] == '$';
  }

  /** `config/a.yaml` passes the path test through its separator. */
  lemma SeparatorPathLooksRelative()
    ensures LooksPackageRelative("config/a.yaml")
  {
    var s := "config/a.yaml";
    NotRootedOrSubstituted(s);
    assert s[6] == '/';
  }

  /** `model.onnx` passes the path test through its extension. */
  lemma ExtensionNameLooksRelative()
    ensures LooksPackageRelative("model.onnx")
  {
    var s := "model.onnx";
    NotRootedOrSubstituted(s);
    assert s[|s| - 5..] == ".onnx" == ResourceExtensions[3];
  }

  lemma DemoShareSeparator()
    ensures ShareExpression("demo_pkg") + "config/a.yaml" == "$(find-pkg-share demo_pkg)/config/a.yaml"
  {
  }

  lemma DemoShareExtension()
    ensures ShareExpression("demo_pkg") + "model.onnx" == "$(find-pkg-share demo_pkg)/model.onnx"
  {
  }

  /** A relative path with a separator is prefixed. */
  lemma RewriteExampleSeparator()
    ensures Rewrite(Str("config/a.yaml"), Some("demo_pkg")) == Str("$(find-pkg-share demo_pkg)/config/a.yaml")
  {
    SeparatorPathLooksRelative();
    DemoShareSeparator();
  }

  /** A bare file name with a resource extension is prefixed. */
  lemma RewriteExampleExtension()
    ensures Rewrite(Str("model.onnx"), Some("demo_pkg")) == Str("$(find-pkg-share demo_pkg)/model.onnx")
  {
    ExtensionNameLooksRelative();
    DemoShareExtension();
  }

  /** Absolute paths, substitutions and an empty package name are left alone. */
  lemma RewriteExamplesKept()
    ensures Rewrite(Str("/abs/a.yaml"), Some("demo_pkg")) == Str("/abs/a.yaml")
    ensures Rewrite(Str("$(var foo)"), Some("demo_pkg")) == Str("$(var foo)")
    ensures Rewrite(Str("config/a.yaml"), Some("")) == Str("config/a.yaml")
  {
    assert StartsWith("/abs/a.yaml", "/");
    assert StartsWith("$(var foo)", "$(");
  }

  /** A string with neither a separator nor a resource extension is left alone. */
  lemma RewriteExamplePlain()
    ensures Rewrite(Str("plain_string"), Some("demo_pkg")) == Str("plain_string")
  {
    var s := "plain_string";
    assert '/' !in s;
    forall i | 0 <= i < |ResourceExtensions|
      ensures !EndsWith(s, ResourceExtensions[i])
    {
      assert s[|s| - 1] == 'g';
    }
  }
}

=== FILE: ref_resolver.dfy ===
/**
 * `$ref` resolution of a JSON schema (`SchemaToRosParamConverter._resolve_refs`).
 *
 * A `$ref` is either internal, `#/definitions/NAME`, looked up in the document
 * currently acting as root, or external, `FILE` or `FILE#/definitions/NAME`.
 * External files are always located relative to the directory of the
 * top-level schema file, however deep the reference sits.  The resolved
 * target, when it is an object, receives the referencing node's other keys on
 * top; anything that goes wrong on the external path leaves the node as it
 * was.
 *
 * The code has no cycle guard.  `fuel` stands for the interpreter's recursion
 * limit: each call of the resolver spends one unit, and running out is the
 * `RecursionError` Python would raise, which the external branch swallows like
 * any other exception and which otherwise propagates to the caller.
 */
module RefResolver {

  import opened Strings
  import opened Wrappers
  import opened Json

  /**
   * The files an external reference can name, keyed by the path written in
   * the reference (relative to the top-level schema's directory).  A path
   * that is absent does not exist; one mapped to None exists but does not
   * load as JSON.
   */
  type Documents = map<string, Option<Json>>

  const RefKey := "$ref"
  const DefinitionsKey := "definitions"
  const InternalPrefix := "#/definitions/"
  const FragmentPrefix := "/definitions/"

  /** No object anywhere in `v` has a `$ref` key. */
  predicate RefFree(v: Json)
  {
    match v
    case Obj(ms) => RefKey !in Keys(ms) && forall i :: 0 <= i < |ms| ==> RefFree(ms[i].value)
    case Arr(items) => forall i :: 0 <= i < |items| ==> RefFree(items[i])
    case _ => true
  }

  /**
   * `resolved = target.copy()` followed by `resolved[key] = value` for every
   * key of the referencing node except `$ref`, in that node's order.
   */
  function Overlay(target: seq<Member>, siblings: seq<Member>): seq<Member>
    decreases |siblings|
  {
    if siblings == [] then target
    else
      var m := siblings[0];
      Overlay(if m.key != RefKey then Put(target, m.key, m.value) else target, siblings[1..])
  }

  /**
   * `out` holds every key of `target` (in their original positions) and every
   * key of `siblings` except `$ref`, and nothing else; a sibling's value wins
   * over the target's.
   */
  ghost predicate OverlaidOn(out: seq<Member>, target: seq<Member>, siblings: seq<Member>)
  {
    && (forall k :: k in Keys(out) <==> k in Keys(target) || (k in Keys(siblings) && k != RefKey))
    && (forall k :: k in Keys(siblings) && k != RefKey ==> Get(out, k) == Get(siblings, k))
    && (forall k :: k !in Keys(siblings) || k == RefKey ==> Get(out, k) == Get(target, k))
    && Keys(target) <= Keys(out)
  }

  lemma {:induction false} OverlayCorrect(target: seq<Member>, siblings: seq<Member>)
    requires DistinctKeys(siblings)
    ensures OverlaidOn(Overlay(target, siblings), target, siblings)
    decreases |siblings|
  {
    if siblings != [] {
      var m := siblings[0];
      var next := if m.key != RefKey then Put(target, m.key, m.value) else target;
      if m.key != RefKey {
        PutKeys(target, m.key, m.value);
        forall k ensures Get(next, k) == if k == m.key then Some(m.value) else Get(target, k) {
          PutGet(target, m.key, m.value, k);
        }
      }
      DistinctTail(siblings);
      OverlayCorrect(next, siblings[1..]);
      var out := Overlay(target, siblings);
      assert out == Overlay(next, siblings[1..]);
      assert Keys(siblings) == [m.key] + Keys(siblings[1..]);
      assert Keys(target) <= Keys(next);
      forall k | k in Keys(siblings) && k != RefKey
        ensures Get(out, k) == Get(siblings, k)
      {
        if k != m.key {
          assert k in Keys(siblings[1..]);
        }
      }
    }
  }

  /** The referenced definition merged with the referencing node's keys, or the node itself. */
  function Merge(resolved: Json, ms: seq<Member>): Json
  {
    if resolved.Obj? then Obj(Overlay(resolved.members, ms)) else Obj(ms)
  }

  /**
   * `"definitions" in doc and name in doc["definitions"]`, then
   * `doc["definitions"][name]`, with Python's behaviour on every shape of
   * `doc`: Ok(None) when the definition is missing, an error when Python
   * raises one.
   */
  function FindDefinition(doc: Json, name: string): (r: Result<Option<Json>>)
    ensures doc.Obj? && DefinitionsKey !in Keys(doc.members) ==> r == Ok(None)
    ensures doc.Obj? && DefinitionsKey in Keys(doc.members) && Get(doc.members, DefinitionsKey).value.Obj? ==>
              r == Ok(Get(Get(doc.members, DefinitionsKey).value.members, name))
    ensures doc.Atom? ==> r.Err?
  {
    var hasDefinitions :- In(doc, DefinitionsKey);
    if !hasDefinitions then Ok(None)
    else
      var definitions :- Index(doc, DefinitionsKey);
      var hasName :- In(definitions, name);
      if !hasName then Ok(None)
      else
        var d :- Index(definitions, name);
        Ok(Some(d))
  }

  /** Resolve every `$ref` in `node`, with `root` as the document internal references use. */
  function Resolve(docs: Documents, node: Json, root: Json, fuel: nat): Result<Json>
    decreases fuel, 0, 0
  {
    if fuel == 0 then Err(RecursionError)
    else
      match node
      case Obj(ms) =>
        if RefKey in Keys(ms) then ResolveRef(docs, ms, root, fuel - 1)
        else
          var rs :- ResolveMembers(docs, ms, root, fuel - 1);
          Ok(Obj(rs))
      case Arr(items) =>
        var rs :- ResolveItems(docs, items, root, fuel - 1);
        Ok(Arr(rs))
      case _ => Ok(node)
  }

  /** A fresh object with every value resolved and the keys in their order. */
  function ResolveMembers(docs: Documents, ms: seq<Member>, root: Json, fuel: nat): (r: Result<seq<Member>>)
    ensures r.Ok? ==> Keys(r.value) == Keys(ms)
    decreases fuel, 1, |ms|
  {
    if ms == [] then Ok([])
    else
      var v :- Resolve(docs, ms[0].value, root, fuel);
      var rest :- ResolveMembers(docs, ms[1..], root, fuel);
      Ok([Member(ms[0].key, v)] + rest)
  }

  function ResolveItems(docs: Documents, items: seq<Json>, root: Json, fuel: nat): (r: Result<seq<Json>>)
    ensures r.Ok? ==> |r.value| == |items|
    decreases fuel, 1, |items|
  {
    if items == [] then Ok([])
    else
      var v :- Resolve(docs, items[0], root, fuel);
      var rest :- ResolveItems(docs, items[1..], root, fuel);
      Ok([v] + rest)
  }

  /** The object `Obj(ms)` carries a `$ref`; `fuel` is what nested resolutions may spend. */
  function ResolveRef(docs: Documents, ms: seq<Member>, root: Json, fuel: nat): Result<Json>
    requires RefKey in Keys(ms)
    decreases fuel, 3, 0
  {
    match Get(ms, RefKey).value
    case Str(ref) =>
      if !StartsWith(ref, "#") then Ok(ResolveExternal(docs, ms, ref, fuel))
      else if StartsWith(ref, InternalPrefix) then
        var found :- FindDefinition(root, RemoveAll(ref, InternalPrefix));
        if found.None? then Ok(Obj(ms))
        else
          var resolved :- Resolve(docs, found.value, root, fuel);
          Ok(Merge(resolved, ms))
      else Ok(Obj(ms))
    case _ => Ok(Obj(ms))
  }

  /** An external reference: every failure, including one deep inside, leaves the node as it was. */
  function ResolveExternal(docs: Documents, ms: seq<Member>, ref: string, fuel: nat): Json
    decreases fuel, 2, 1
  {
    var (filePart, fragment) := Partition(ref, '#');
    if filePart !in docs || docs[filePart].None? then Obj(ms)
    else
      match ExternalTarget(docs, ms, fragment, docs[filePart].value, fuel)
      case Ok(r) => r
      case Err(_) => Obj(ms)
  }

  /** The body of the `try` around an external document `ext`. */
  function ExternalTarget(docs: Documents, ms: seq<Member>, fragment: string, ext: Json, fuel: nat): Result<Json>
    decreases fuel, 2, 0
  {
    if fragment == "" then Resolve(docs, ext, ext, fuel)
    else if !StartsWith(fragment, FragmentPrefix) then Ok(Obj(ms))
    else
      var found :- FindDefinition(ext, RemoveAll(fragment, FragmentPrefix));
      if found.None? then Ok(Obj(ms))
      else
        var resolved :- Resolve(docs, found.value, ext, fuel);
        Ok(Merge(resolved, ms))
  }

  // ---------------------------------------------------------------------
  // Properties
  // ---------------------------------------------------------------------

  /**
   * A tree without `$ref` comes back structurally equal when the recursion
   * limit covers its nesting depth, however many nodes it has.
   */
  lemma {:induction false} ResolveRefFree(docs: Documents, node: Json, root: Json, fuel: nat)
    requires RefFree(node) && Depth(node) <= fuel
    ensures Resolve(docs, node, root, fuel) == Ok(node)
    decreases fuel, 0, 0
  {
    match node
    case Obj(ms) =>
      ResolveMembersRefFree(docs, ms, root, fuel - 1);
    case Arr(items) =>
      ResolveItemsRefFree(docs, items, root, fuel - 1);
    case _ =>
  }

  lemma {:induction false} ResolveMembersRefFree(docs: Documents, ms: seq<Member>, root: Json, fuel: nat)
    requires forall i :: 0 <= i < |ms| ==> RefFree(ms[i].value)
    requires MembersDepth(ms) <= fuel
    ensures ResolveMembers(docs, ms, root, fuel) == Ok(ms)
    decreases fuel, 1, |ms|
  {
    if ms != [] {
      ResolveRefFree(docs, ms[0].value, root, fuel);
      ResolveMembersRefFree(docs, ms[1..], root, fuel);
      assert ms == [Member(ms[0].key, ms[0].value)] + ms[1..];
    }
  }

  lemma {:induction false} ResolveItemsRefFree(docs: Documents, items: seq<Json>, root: Json, fuel: nat)
    requires forall i :: 0 <= i < |items| ==> RefFree(items[i])
    requires ItemsDepth(items) <= fuel
    ensures ResolveItems(docs, items, root, fuel) == Ok(items)
    decreases fuel, 1, |items|
  {
    if items != [] {
      ResolveRefFree(docs, items[0], root, fuel);
      ResolveItemsRefFree(docs, items[1..], root, fuel);
      assert items == [items[0]] + items[1..];
    }
  }

  /** A tree without `$ref` nested deeper than the recursion limit raises `RecursionError`. */
  lemma {:induction false} ResolveTooDeep(docs: Documents, node: Json, root: Json, fuel: nat)
    requires RefFree(node) && fuel < Depth(node)
    ensures Resolve(docs, node, root, fuel) == Err(RecursionError)
    decreases fuel, 0, 0
  {
    match node
    case Obj(ms) =>
      if fuel > 0 {
        ResolveMembersTooDeep(docs, ms, root, fuel - 1);
      }
    case Arr(items) =>
      if fuel > 0 {
        ResolveItemsTooDeep(docs, items, root, fuel - 1);
      }
    case _ =>
  }

  lemma {:induction false} ResolveMembersTooDeep(docs: Documents, ms: seq<Member>, root: Json, fuel: nat)
    requires forall i :: 0 <= i < |ms| ==> RefFree(ms[i].value)
    requires fuel < MembersDepth(ms)
    ensures ResolveMembers(docs, ms, root, fuel) == Err(RecursionError)
    decreases fuel, 1, |ms|
  {
    if fuel < Depth(ms[0].value) {
      ResolveTooDeep(docs, ms[0].value, root, fuel);
    } else {
      ResolveRefFree(docs, ms[0].value, root, fuel);
      ResolveMembersTooDeep(docs, ms[1..], root, fuel);
    }
  }

  lemma {:induction false} ResolveItemsTooDeep(docs: Documents, items: seq<Json>, root: Json, fuel: nat)
    requires forall i :: 0 <= i < |items| ==> RefFree(items[i])
    requires fuel < ItemsDepth(items)
    ensures ResolveItems(docs, items, root, fuel) == Err(RecursionError)
    decreases fuel, 1, |items|
  {
    if fuel < Depth(items[0]) {
      ResolveTooDeep(docs, items[0], root, fuel);
    } else {
      ResolveRefFree(docs, items[0], root, fuel);
      ResolveItemsTooDeep(docs, items[1..], root, fuel);
    }
  }

  /** On a tree without `$ref`, resolution succeeds exactly when the depth is within the limit. */
  lemma RefFreeSucceedsIffShallow(docs: Documents, node: Json, root: Json, fuel: nat)
    requires RefFree(node)
    ensures Resolve(docs, node, root, fuel).Ok? <==> Depth(node) <= fuel
    ensures Resolve(docs, node, root, fuel).Ok? ==> Resolve(docs, node, root, fuel).value == node
  {
    if Depth(node) <= fuel {
      ResolveRefFree(docs, node, root, fuel);
    } else {
      ResolveTooDeep(docs, node, root, fuel);
    }
  }

  /**
   * An internal reference `#/definitions/NAME` whose definition resolves to an
   * object yields that object with the referencing node's other keys on top.
   */
  lemma InternalRefMerged(docs: Documents, ms: seq<Member>, root: Json, fuel: nat,
                          name: string, defs: seq<Member>, dm: seq<Member>)
    requires fuel > 0 && DistinctKeys(ms)
    requires Get(ms, RefKey) == Some(Str(InternalPrefix + name)) && !IsSubstring(InternalPrefix, name)
    requires root.Obj? && Get(root.members, DefinitionsKey) == Some(Obj(defs)) && name in Keys(defs)
    requires Resolve(docs, Get(defs, name).value, root, fuel - 1) == Ok(Obj(dm))
    ensures var r := Resolve(docs, Obj(ms), root, fuel);
            r.Ok? && r.value.Obj? && OverlaidOn(r.value.members, dm, ms)
  {
    var ref := InternalPrefix + name;
    assert ref[..|InternalPrefix|] == InternalPrefix;
    assert ref[..1] == "#";
    RemoveAllLeading(InternalPrefix, name);
    assert FindDefinition(root, RemoveAll(ref, InternalPrefix)) == Ok(Get(defs, name));
    assert ResolveRef(docs, ms, root, fuel - 1) == Ok(Obj(Overlay(dm, ms)));
    OverlayCorrect(dm, ms);
  }

  /**
   * A `$ref` starting with `#`: any other fragment than `#/definitions/NAME`,
   * a missing definition or a definition that does not resolve to an object
   * leaves the node as it was; a definition that resolves to an object is
   * merged with the node's other keys; lookup and resolution errors propagate,
   * since this branch has no `try`.
   */
  lemma InternalRefOutcome(docs: Documents, ms: seq<Member>, root: Json, fuel: nat, ref: string)
    requires fuel > 0 && Get(ms, RefKey) == Some(Str(ref)) && StartsWith(ref, "#")
    ensures var r := Resolve(docs, Obj(ms), root, fuel);
            var found := FindDefinition(root, RemoveAll(ref, InternalPrefix));
            && (!StartsWith(ref, InternalPrefix) ==> r == Ok(Obj(ms)))
            && (StartsWith(ref, InternalPrefix) && found.Err? ==> r.Err?)
            && (StartsWith(ref, InternalPrefix) && found == Ok(None) ==> r == Ok(Obj(ms)))
            && (StartsWith(ref, InternalPrefix) && found.Ok? && found.value.Some? ==>
                  var resolved := Resolve(docs, found.value.value, root, fuel - 1);
                  && (resolved.Err? ==> r.Err?)
                  && (resolved.Ok? && !resolved.value.Obj? ==> r == Ok(Obj(ms)))
                  && (resolved.Ok? && resolved.value.Obj? ==> r == Ok(Obj(Overlay(resolved.value.members, ms)))))
  {
  }

  /** A `$ref` that is not a string leaves its node as it was. */
  lemma NonStringRefKept(docs: Documents, ms: seq<Member>, root: Json, fuel: nat, ref: Json)
    requires fuel > 0 && Get(ms, RefKey) == Some(ref) && !ref.Str?
    ensures Resolve(docs, Obj(ms), root, fuel) == Ok(Obj(ms))
  {
  }

  /**
   * An external reference never raises, and leaves its node as it was unless
   * the file exists and loads and either (no fragment) the whole document
   * resolves, or the fragment names `/definitions/NAME`, the document defines
   * NAME and that definition resolves to an object.  Both resolutions use the
   * external document as root and the same file map: paths inside an
   * external document stay relative to the top-level schema's directory.
   */
  lemma ExternalRefOutcome(docs: Documents, ms: seq<Member>, root: Json, fuel: nat, ref: string)
    requires fuel > 0 && Get(ms, RefKey) == Some(Str(ref)) && !StartsWith(ref, "#")
    ensures var r := Resolve(docs, Obj(ms), root, fuel);
            && r.Ok?
            && (r != Ok(Obj(ms)) ==>
                  var (file, fragment) := Partition(ref, '#');
                  && file in docs && docs[file].Some?
                  && var ext := docs[file].value;
                     if fragment == "" then r == Resolve(docs, ext, ext, fuel - 1)
                     else
                       && StartsWith(fragment, FragmentPrefix)
                       && var found := FindDefinition(ext, RemoveAll(fragment, FragmentPrefix));
                          && found.Ok? && found.value.Some?
                          && var resolved := Resolve(docs, found.value.value, ext, fuel - 1);
                             resolved.Ok? && resolved.value.Obj? && r == Ok(Merge(resolved.value, ms)))
  {
    var (file, fragment) := Partition(ref, '#');
    var r := Resolve(docs, Obj(ms), root, fuel);
    assert r == ResolveRef(docs, ms, root, fuel - 1);
    assert r == Ok(ResolveExternal(docs, ms, ref, fuel - 1));
    if file in docs && docs[file].Some? {
      var ext := docs[file].value;
      var t := ExternalTarget(docs, ms, fragment, ext, fuel - 1);
      assert r == if t.Ok? then Ok(t.value) else Ok(Obj(ms));
    }
  }

  /**
   * A whole-file reference yields the external document resolved against
   * itself, with no overlay of the referencing node's keys.
   */
  lemma ExternalWholeFile(docs: Documents, ms: seq<Member>, root: Json, fuel: nat,
                          file: string, resolved: Json)
    requires fuel > 0 && Get(ms, RefKey) == Some(Str(file))
    requires file != "" && '#' !in file
    requires file in docs && docs[file].Some?
    requires Resolve(docs, docs[file].value, docs[file].value, fuel - 1) == Ok(resolved)
    ensures Resolve(docs, Obj(ms), root, fuel) == Ok(resolved)
  {
    assert file[0] in file;
    assert file[..1] == [file[0]];
    assert Partition(file, '#') == (file, "");
    var ext := docs[file].value;
    assert ExternalTarget(docs, ms, "", ext, fuel - 1) == Ok(resolved);
    assert ResolveExternal(docs, ms, file, fuel - 1) == resolved;
  }

  /** How `FILE#/definitions/NAME` is taken apart. */
  lemma ExternalRefSyntax(file: string, name: string)
    requires file != "" && '#' !in file && !IsSubstring(FragmentPrefix, name)
    ensures var ref := file + "#" + FragmentPrefix + name;
            && !StartsWith(ref, "#")
            && Partition(ref, '#') == (file, FragmentPrefix + name)
            && StartsWith(FragmentPrefix + name, FragmentPrefix)
            && RemoveAll(FragmentPrefix + name, FragmentPrefix) == name
  {
    var ref := file + "#" + FragmentPrefix + name;
    var fragment := FragmentPrefix + name;
    assert ref == file + ['#'] + fragment;
    assert file[0] in file;
    assert ref[..1] == [file[0]];
    PartitionAt(file, '#', fragment);
    assert fragment[..|FragmentPrefix|] == FragmentPrefix;
    RemoveAllLeading(FragmentPrefix, name);
  }

  /**
   * `FILE#/definitions/NAME` whose definition resolves (against FILE's
   * document) to an object yields that object with the node's other keys on
   * top.
   */
  lemma ExternalDefinitionMerged(docs: Documents, ms: seq<Member>, root: Json, fuel: nat,
                                 file: string, name: string, defs: seq<Member>, dm: seq<Member>)
    requires fuel > 0 && DistinctKeys(ms)
    requires file != "" && '#' !in file && !IsSubstring(FragmentPrefix, name)
    requires Get(ms, RefKey) == Some(Str(file + "#" + FragmentPrefix + name))
    requires file in docs && docs[file].Some? && docs[file].value.Obj?
    requires Get(docs[file].value.members, DefinitionsKey) == Some(Obj(defs)) && name in Keys(defs)
    requires Resolve(docs, Get(defs, name).value, docs[file].value, fuel - 1) == Ok(Obj(dm))
    ensures var r := Resolve(docs, Obj(ms), root, fuel);
            r.Ok? && r.value.Obj? && OverlaidOn(r.value.members, dm, ms)
  {
    var ref := file + "#" + FragmentPrefix + name;
    var fragment := FragmentPrefix + name;
    ExternalRefSyntax(file, name);
    var ext := docs[file].value;
    assert FindDefinition(ext, name) == Ok(Some(Get(defs, name).value));
    assert ExternalTarget(docs, ms, fragment, ext, fuel - 1) == Ok(Merge(Obj(dm), ms));
    assert ResolveExternal(docs, ms, ref, fuel - 1) == Merge(Obj(dm), ms);
    assert Resolve(docs, Obj(ms), root, fuel) == Ok(Merge(Obj(dm), ms));
    OverlayCorrect(dm, ms);
  }

  /**
   * The fragment is stripped with `replace`, which removes every occurrence
   * of `/definitions/`: a fragment naming a nested definition,
   * `/definitions/a/definitions/b`, looks up the top-level name `ab`.
   */
  lemma NestedFragmentFlattened()
    ensures RemoveAll(FragmentPrefix + "a" + FragmentPrefix + "b", FragmentPrefix) == "ab"
  {
    var p := FragmentPrefix;
    var u := p + "b";
    var t := "a" + u;
    var s := p + "a" + p + "b";
    assert s == p + t;
    assert s[..|p|] == p && s[|p|..] == t;
    assert t[..|p|][0] != p[0] && t[1..] == u;
    assert RemoveAll(t, p) == "a" + RemoveAll(u, p);
    assert u[..|p|] == p && u[|p|..] == "b";
    assert RemoveAll("b", p) == "b";
  }
}

=== FILE: strings.dfy ===
/**
 * The Python `str` operations the tools rely on: `startswith`, `endswith`,
 * `in`, `partition`, `replace(pattern, "")`, `join`, the code-point order
 * that `sorted` uses on strings, and `os.path.join`.
 */
module Strings {

  predicate StartsWith(s: string, prefix: string)
  {
    |prefix| <= |s| && s[..|prefix|] == prefix
  }

  predicate EndsWith(s: string, suffix: string)
  {
    |suffix| <= |s| && s[|s| - |suffix|..] == suffix
  }

  /** `endswith` compared one character at a time, from the last one backwards. */
  predicate HasSuffix(s: string, suffix: string)
    decreases |suffix|
  {
    suffix == [] ||
    (s != [] && s[|s| - 1] == suffix[|suffix| - 1] && HasSuffix(s[..|s| - 1], suffix[..|suffix| - 1]))
  }

  /** A non-empty suffix ends `s` when their last characters agree and the rest ends the rest of `s`. */
  lemma EndsWithStep(s: string, suffix: string)
    requires s != [] && suffix != []
    ensures EndsWith(s, suffix) <==>
              s[|s| - 1] == suffix[|suffix| - 1] && EndsWith(s[..|s| - 1], suffix[..|suffix| - 1])
  {
    var s', suffix' := s[..|s| - 1], suffix[..|suffix| - 1];
    if |suffix| <= |s| {
      var tail := s[|s| - |suffix|..];
      assert tail == s'[|s'| - |suffix'|..] + [s[|s| - 1]];
      if EndsWith(s, suffix) {
        assert s'[|s'| - |suffix'|..] == tail[..|suffix'|];
      }
      if s[|s| - 1] == suffix[|suffix| - 1] && EndsWith(s', suffix') {
        assert suffix == suffix' + [suffix[|suffix| - 1]];
      }
    }
  }

  /** The character-by-character comparison is `endswith`. */
  lemma {:induction false} HasSuffixIsEndsWith(s: string, suffix: string)
    ensures HasSuffix(s, suffix) <==> EndsWith(s, suffix)
    decreases |suffix|
  {
    if suffix != [] && s != [] {
      HasSuffixIsEndsWith(s[..|s| - 1], suffix[..|suffix| - 1]);
      EndsWithStep(s, suffix);
    }
  }

  /** Python's `needle in haystack` on two strings. */
  predicate IsSubstring(needle: string, haystack: string)
    decreases |haystack|
  {
    StartsWith(haystack, needle) || (haystack != [] && IsSubstring(needle, haystack[1..]))
  }

  /** A one-character needle is a substring exactly when it is an element. */
  lemma {:induction false} SingleCharSubstring(c: char, s: string)
    ensures IsSubstring([c], s) <==> c in s
    decreases |s|
  {
    if s != [] {
      SingleCharSubstring(c, s[1..]);
      assert s == [s[0]] + s[1..];
    }
  }

  /**
   * Python's `s.replace(pattern, "")`: every non-overlapping occurrence of
   * `pattern`, scanning from the left, is removed.
   */
  function RemoveAll(s: string, pattern: string): (r: string)
    requires pattern != []
    ensures |r| <= |s|
    decreases |s|
  {
    if StartsWith(s, pattern) then RemoveAll(s[|pattern|..], pattern)
    else if s == [] then []
    else [s[0]] + RemoveAll(s[1..], pattern)
  }

  /** Removing a pattern that does not occur changes nothing. */
  lemma {:induction false} RemoveAllAbsent(s: string, pattern: string)
    requires pattern != [] && !IsSubstring(pattern, s)
    ensures RemoveAll(s, pattern) == s
    decreases |s|
  {
    if s != [] {
      RemoveAllAbsent(s[1..], pattern);
      assert s == [s[0]] + s[1..];
    }
  }

  /**
   * Stripping a leading pattern with `replace` yields the rest of the string
   * exactly when the rest holds no further occurrence of the pattern.
   */
  lemma {:induction false} RemoveAllLeading(pattern: string, rest: string)
    requires pattern != [] && !IsSubstring(pattern, rest)
    ensures RemoveAll(pattern + rest, pattern) == rest
  {
    assert (pattern + rest)[..|pattern|] == pattern;
    assert (pattern + rest)[|pattern|..] == rest;
    RemoveAllAbsent(rest, pattern);
  }

  /**
   * Python's `s.partition(sep)` for a one-character separator: the text
   * before the first separator and the text after it; without a separator,
   * the whole string and "".
   */
  function Partition(s: string, sep: char): (r: (string, string))
    ensures sep in s ==> s == r.0 + [sep] + r.1 && sep !in r.0
    ensures sep !in s ==> r == (s, "")
  {
    if s == [] then ("", "")
    else if s[0] == sep then ("", s[1..])
    else
      var rest := Partition(s[1..], sep);
      assert s == [s[0]] + s[1..];
      ([s[0]] + rest.0, rest.1)
  }

  lemma {:induction false} PartitionAt(before: string, sep: char, after: string)
    requires sep !in before
    ensures Partition(before + [sep] + after, sep) == (before, after)
  {
    if before != [] {
      assert before[0] in before;
      PartitionAt(before[1..], sep, after);
      var s := before + [sep] + after;
      assert s[0] == before[0] && s[1..] == before[1..] + [sep] + after;
      assert before == [before[0]] + before[1..];
    } else {
      assert before + [sep] + after == [sep] + after;
    }
  }

  /** Python's `sep.join(parts)`. */
  function Join(parts: seq<string>, sep: string): string
  {
    if parts == [] then ""
    else if |parts| == 1 then parts[0]
    else parts[0] + sep + Join(parts[1..], sep)
  }

  /** Python's `a < b` on strings: lexicographic by code point. */
  predicate Less(a: string, b: string)
  {
    if a == [] then b != []
    else if b == [] then false
    else if a[0] != b[0] then a[0] < b[0]
    else Less(a[1..], b[1..])
  }

  lemma {:induction false} LessIrreflexive(a: string)
    ensures !Less(a, a)
  {
    if a != [] {
      LessIrreflexive(a[1..]);
    }
  }

  lemma {:induction false} LessTransitive(a: string, b: string, c: string)
    requires Less(a, b) && Less(b, c)
    ensures Less(a, c)
  {
    if a != [] && b != [] && c != [] && a[0] == b[0] && b[0] == c[0] {
      LessTransitive(a[1..], b[1..], c[1..]);
    }
  }

  lemma {:induction false} LessTotal(a: string, b: string)
    ensures a == b || Less(a, b) || Less(b, a)
  {
    if a != [] && b != [] && a[0] == b[0] {
      LessTotal(a[1..], b[1..]);
      if a[1..] == b[1..] {
        assert a == [a[0]] + a[1..] && b == [b[0]] + b[1..];
      }
    }
  }

  lemma LessAsymmetric(a: string, b: string)
    requires Less(a, b)
    ensures !Less(b, a)
  {
    if Less(b, a) {
      LessTransitive(a, b, a);
      LessIrreflexive(a);
    }
  }

  /** What `sorted` returns for a set: ascending, hence without repeats. */
  predicate StrictlyAscending(s: seq<string>)
  {
    forall i, j :: 0 <= i < j < |s| ==> Less(s[i], s[j])
  }

  /** The position at which `x` goes into an ascending sequence. */
  function Insert(s: seq<string>, x: string): (r: seq<string>)
    requires StrictlyAscending(s)
    ensures StrictlyAscending(r)
    ensures forall y :: y in r <==> y in s || y == x
  {
    if s == [] then [x]
    else if s[0] == x then s
    else if Less(x, s[0]) then
      assert forall j :: 0 < j < |s| ==> Less(x, s[j]) by {
        forall j | 0 < j < |s| ensures Less(x, s[j]) { LessTransitive(x, s[0], s[j]); }
      }
      [x] + s
    else
      LessTotal(x, s[0]);
      var rest := Insert(s[1..], x);
      assert forall y :: y in s <==> y == s[0] || y in s[1..] by {
        assert s == [s[0]] + s[1..];
      }
      var r := [s[0]] + rest;
      assert forall j :: 0 < j < |r| ==> Less(s[0], r[j]) by {
        forall j | 0 < j < |r| ensures Less(s[0], r[j]) {
          assert r[j] in rest;
        }
      }
      r
  }

  lemma AscendingTail(s: seq<string>)
    requires StrictlyAscending(s) && s != []
    ensures StrictlyAscending(s[1..])
    ensures forall x :: x in s[1..] <==> x in s && x != s[0]
  {
    assert s == [s[0]] + s[1..];
    forall x | x in s[1..] ensures x != s[0] {
      var i :| 0 <= i < |s[1..]| && s[1..][i] == x;
      assert Less(s[0], s[i + 1]);
      LessIrreflexive(s[0]);
    }
  }

  /**
   * Two ascending sequences with the same elements are equal: the result of
   * `sorted` is determined by the set alone.
   */
  lemma {:induction false} AscendingUnique(s: seq<string>, t: seq<string>)
    requires StrictlyAscending(s) && StrictlyAscending(t)
    requires forall x :: x in s <==> x in t
    ensures s == t
    decreases |s|
  {
    assert s != [] ==> s[0] in t;
    assert t != [] ==> t[0] in s;
    if s != [] && t != [] {
      var j :| 0 <= j < |t| && t[j] == s[0];
      var i :| 0 <= i < |s| && s[i] == t[0];
      if i != 0 && j != 0 {
        assert Less(s[0], t[0]) && Less(t[0], s[0]);
        LessAsymmetric(s[0], t[0]);
      }
      assert s[0] == t[0];
      AscendingTail(s);
      AscendingTail(t);
      AscendingUnique(s[1..], t[1..]);
      assert s == [s[0]] + s[1..] && t == [t[0]] + t[1..];
    }
  }

  /** Python's `os.path.join(a, b)` on strings. */
  function PathJoin(a: string, b: string): string
  {
    if b != [] && b[0] == '/' then b
    else a + (if a == [] || a[|a| - 1] == '/' then [] else ['/']) + b
  }

  /**
   * `b` is kept whole at the end of the joined path, and `a` survives as a
   * prefix, followed by at most one added separator, unless `b` is absolute.
   */
  lemma PathJoinShape(a: string, b: string)
    ensures EndsWith(PathJoin(a, b), b)
    ensures !StartsWith(b, "/") ==> StartsWith(PathJoin(a, b), a) && |PathJoin(a, b)| <= |a| + 1 + |b|
    ensures StartsWith(b, "/") ==> PathJoin(a, b) == b
  {
    var r := PathJoin(a, b);
    if StartsWith(b, "/") {
      assert b[|b| - |b|..] == b;
    } else {
      assert r[..|a|] == a && r[|r| - |b|..] == b;
    }
  }

  /** Python's `os.path.join(a, *parts)`: one component at a time. */
  function PathJoinAll(a: string, parts: seq<string>): (r: string)
    decreases |parts|
  {
    if parts == [] then a else PathJoinAll(PathJoin(a, parts[0]), parts[1..])
  }
}

=== FILE: wrappers.dfy ===
/** An optional value: Python's `None` or a value. */
module Wrappers {

  datatype Option<T> = None | Some(value: T)
}
